=== FILE: README.md ===
# WpCacheController cache engine in Dafny

A functional model of the cache engine of WpCacheController, a WordPress
plugin that caches rendered HTML fragments and arbitrary values on disk,
one directory per *profile*, and invalidates a whole profile at once when
one of the WordPress actions it subscribes to fires.

Two PHP classes make up the engine:

- **Dealer**, the per-profile cache. It validates keys and maps them to
  entry files `StorageDir/Profile/Key.php`. It decides staleness, first by
  the entry's TTL and then against the profile's master tag
  `StorageDir/Profile/.master.tag`. It fetches and saves entries, and it
  serves `Get()` (a producer returns a value) and `Output()` (a producer
  prints text). Invalidation only moves the master tag's modification
  time forward. Every fetch counts a statistic and may write a log line.
- **CacheController**, the profile registry and event router:
  - `SetProfile()` stores a sanitised action list and flags ANDed with
    the global settings.
  - `GetDealer()` builds a profile's dealer once and memoises it.
  - `OnAllAction()` listens to every WordPress action. It invalidates
    each profile whose action list holds the hook's search name (the part
    before the first `(`).
  - A group whose list holds the hook re-fires the action `Group(Hook)`,
    which comes back through the same listener.
  - Statistics are counted in a per-request buffer and merged into the
    persisted counters at shutdown.

The model is pure. The disk is a value `Fs` (files with content and
modification time, plus the set of directories). The clock is an explicit
`now` argument. Statistics are a `map<string, nat>` and the log is a
sequence of lines. A PHP closure is a value parameter plus a trace of the
callbacks that were run. `wp_die()` and `trigger_error(E_USER_ERROR)`,
which end the request, become `Err` results.

Modules, one per file:

| file | module | contents |
|---|---|---|
| common.dfy | Common | `Option`, `Result` |
| values.dfy | Values | PHP values, the serialized entry format, `echo` |
| php_strings.dfy | PhpStrings | `trim`, `explode`/`implode`, `array_filter(array_map('trim', …))` |
| ordered_maps.dfy | OrderedMaps | PHP arrays with string keys (insertion ordered, assignment replaces in place) |
| keys.dfy | Keys | the key rule of `IsValidKey()` |
| paths.dfy | Paths | entry, master tag and `.htaccess` paths |
| filesystem.dfy | FileSystem | `filemtime`, `touch`, `file_put_contents`, `mkdir` |
| statistics.dfy | Statistics | the statistics buffer and the shutdown merge |
| runtime.dfy | Runtime | what a dealer sees of its controller: storage dir, log switch, state, fatal errors |
| dealer.dfy | Dealer | the Dealer class |
| dealer_properties.dfy | DealerProperties | properties relating several Dealer calls |
| controller.dfy | CacheController | the CacheController class |

On a disabled profile, `Get()` and `Output()` log "Cache Disabled" and
run the producer without validating the key (Dealer.php:93-97, 53-58). An
invalid key therefore ends the request only when the profile is enabled.

## Model

| member | source | states |
|---|---|---|
| Keys.CheckKey | Dealer.php:219-238 | A key is rejected as too long iff it has more than 128 bytes. Otherwise it is rejected iff some byte lies outside `A-Za-z0-9~_!&= \|.-+`. It is accepted iff neither holds. |
| Keys.LengthBoundary | Dealer.php:221-226 | A key of exactly 128 allowed bytes is accepted; one of 129 bytes is rejected as too long. |
| Keys.ForbiddenCountZero | Dealer.php:228-234 | The count of characters `preg_replace` would remove is zero iff every byte is allowed. |
| Dealer.GetFilePath | Dealer.php:204-238 | It returns a path iff the key is valid, and that path is `StorageDir/Name/Key.php`. An over-long key and a key with invalid characters end the request with the matching error. Storage and statistics are untouched either way. |
| Paths.EntryPathInjective | Dealer.php:204-209 | Within one profile, distinct keys map to distinct entry files. |
| Paths.MasterTagInjective | CacheController.php:334-337 | Distinct profiles have distinct master tags. |
| Paths.MasterTagIsNotEntry | CacheController.php:334-337 | A master tag path is never an entry path, of any profile or key. |
| Paths.HtaccessIsNotEntry | Dealer.php:185-188 | The `.htaccess` file is neither an entry nor a master tag. |
| FileSystem.Touch | Dealer.php:128 | `@touch` sets the file's time to now and keeps its content, or creates it empty. With the directory missing it fails silently and nothing changes. No other file changes. |
| FileSystem.TouchTouchesOnly | Dealer.php:127-128 | A touch changes nothing outside the touched path, and stamps it with now. |
| Dealer.Event | Dealer.php:294-306 | An event always counts its statistic by one and no other. It appends the line `Name:  Message` iff both the profile and the global log switch are on. Storage is unchanged. |
| Dealer.Fetch | Dealer.php:138-168 | For a valid key, a value is returned iff the entry is stored, within TTL, not superseded by the master tag and not a stored `false`. Each of the five outcomes counts its own statistic. A missing tag is created now. Only the master tag can change on disk. For an invalid key it returns an error with storage and statistics untouched. |
| DealerProperties.FetchCountsOneEvent | Dealer.php:138-168 | Every fetch with a valid key counts exactly one of "Cache Miss (new entry)", "(expired TTL)", "(invalidated)", "(invalid entry)" or "Cache Hit". |
| DealerProperties.FetchCountsOnlyFetchEvents | Dealer.php:138-168 | A fetch with a valid key grows one of those five counters by one, and every counter outside the five is unchanged. |
| Dealer.IsExpired | Dealer.php:248-273 | An entry is expired iff its TTL has run out, or a master tag exists and is strictly newer than the entry. For an entry path this is the TTL rule or the master-tag rule. An expired TTL counts "Cache Miss (expired TTL)". A master-tag miss within the TTL counts "Cache Miss (invalidated)". A fresh entry counts nothing and logs nothing. A missing tag is created now. Only the tag can change on disk. |
| Dealer.Log | Dealer.php:294-299 | One line, the message, is appended iff the profile and the global log switch are both on. Earlier lines, storage and statistics are kept. |
| Runtime.HostLog | CacheController.php:306-314 | One line, the message, is appended iff logging is enabled globally. Earlier lines, storage and statistics are kept. |
| Values.Echo | Dealer.php:75 | `echo` prints a string as is, `null` and `false` as "", `true` as "1", and an integer as its decimal text. That text is digits with no leading zero, after a `-` when the integer is negative, and the digits read back as the integer. |
| Values.DecimalRoundTrip | Dealer.php:75 | The decimal digits of a natural number read back as that number. |
| DealerProperties.TtlBoundary | Dealer.php:251-257 | An entry saved at t with TTL ≥ 0 is served at t + TTL and is an "expired TTL" miss at t + TTL + 1. |
| DealerProperties.MarkerComparisonIsStrict | Dealer.php:260-270 | An entry written in the same second as the master tag is fresh; one written earlier is an "invalidated" miss. |
| DealerProperties.MissingMarkerGraceLastsOneRead | Dealer.php:260-265 | A read that finds no master tag creates it and is served. A later read, within its TTL, of any entry of the profile written before that first read is then an "invalidated" miss. This includes the entry just served. |
| Dealer.Save | Dealer.php:178-195 | For a valid key the entry holds the serialized value with time now and the result is true. The first save into a profile also creates its directory, a master tag stamped now and `.htaccess`. Nothing else changes. |
| DealerProperties.SaveThenFetch | Dealer.php:178-195 | A value other than `false`, saved and fetched in the same second with TTL ≥ 0, is returned unchanged as a hit. |
| DealerProperties.SaveKeepsMarkerBehind | Dealer.php:182-188 | After a save, the master tag is no newer than the saved entry, if it was not before. |
| DealerProperties.WrittenEntryIsReadable | Dealer.php:138-168 | An entry written at t is read back until t + TTL, as long as the tag is not newer than t. |
| Values.Serialize | Dealer.php:192 | Decoding a saved entry gives back the saved value. |
| Dealer.Get | Dealer.php:88-113 | Disabled: the producer runs once, its result is returned, storage and statistics are untouched. Hit: the stored value is returned, the producer does not run, and the hit callback gets the value. Miss: the producer runs once and its result is stored and returned. Invalid key: error, nothing runs. |
| Dealer.Output | Dealer.php:48-76 | The same cases as Get. The producer's printed text is echoed and, on a miss, stored as a string. A hit echoes the stored value. |
| DealerProperties.OutputReplaysCapturedText | Dealer.php:48-76 | Text captured on a miss is echoed unchanged by a later hit within TTL, without running the producer. |
| DealerProperties.StoredFalseIsNeverServed | Dealer.php:155-159 | Once `false` is stored, the next Get runs the producer again. |
| DealerProperties.DisabledLeavesStorageAlone | Dealer.php:93-97 | A disabled Get leaves the file system and the statistics exactly as they were. |
| Dealer.Invalidate | Dealer.php:121-129 | It counts one "Invalidation" and no other statistic. The master tag is stamped now when the profile directory exists; otherwise nothing on disk changes. No other file changes. |
| DealerProperties.InvalidateThenFetch | Dealer.php:121-129 | After an invalidation at `at`, every entry older than `at` that is still within TTL is an "invalidated" miss. |
| DealerProperties.InvalidateKeepsEntries | Dealer.php:121-129 | Invalidation never changes an entry file, of any profile. |
| DealerProperties.Scenario | Dealer.php:88-129 | With a 100 s TTL: the first call stores, a call 50 s later hits, and after an invalidation at 60 s a call at 70 s runs the producer again. |
| PhpStrings.Trim | CacheController.php:128 | The result starts and ends with no trim character, and is no longer than the input. |
| PhpStrings.TrimStripsPadding | CacheController.php:128 | trim removes exactly the surrounding whitespace and NULs and keeps the inner text. |
| PhpStrings.TrimIdempotent | CacheController.php:128 | Trimming twice is trimming once. |
| PhpStrings.Explode | CacheController.php:124 | The parts contain no delimiter and implode back to the input. There is one part iff the input has no delimiter. |
| PhpStrings.ExplodeImplode | CacheController.php:124 | Exploding the implosion of delimiter-free parts gives the parts back. |
| PhpStrings.ExplodeAtFirst | CacheController.php:200 | The first part is everything before the first delimiter. |
| PhpStrings.TrimAndFilterMembership | CacheController.php:128 | An action survives cleaning iff it is the trim of some input item and is neither "" nor "0". |
| OrderedMaps.Set | CacheController.php:131 | Assigning a key replaces its value in place or appends it. Lookup of that key gives the new value and every other key is unchanged. Keys stay unique. |
| OrderedMaps.LastWriteWins | CacheController.php:131 | Two assignments to one key equal the second alone. |
| CacheController.Boot | CacheController.php:81-97 | The constructor as evidently intended (see "## Findings"): it registers every configured profile in order, and a left-out TTL, logging or enabling key takes SetProfile()'s default (86400, false, true). The code as written passes `null` instead (CacheController.BootAsWritten). The result holds exactly the configured names and no groups. Under each name it files the last entry of that name: the TTL as given or 86400, and the flags as given or defaulted, each ANDed with the global setting. It has no dealer yet. The result also satisfies the registry invariant `Valid`: names are unique, every record is filed under its profile's name, and a memoised dealer carries its record's configuration. SetProfile, GetDealer, RegisterGroupAction and OnAllAction all keep `Valid`, so every controller reached from either constructor meets the precondition of GetDealer and OnAllAction. |
| CacheController.BootWith | CacheController.php:94-97 | Registering the entries in order yields the registry invariant and exactly the configured names. Under each name it files the record SetProfile() builds from the last entry of that name. |
| CacheController.PassedAgreeIff | CacheController.php:96 | The arguments the code passes for an entry (a left-out key is PHP `null`: TTL 0, flags false) equal SetProfile()'s defaults (CacheController.php:120: 86400, false, true) iff the entry gives both the TTL and the enabling key. A left-out logging key is off either way. |
| CacheController.BootAsWritten | CacheController.php:94-97 | As written, a last-of-name entry without the enabling key files a disabled profile. One without a TTL files TTL 0. |
| CacheController.OmittedKeysDisableProfileAsWritten | CacheController.php:96 | Take an entry with only its actions and global caching and logging on. As written, its profile is disabled with TTL 0. With the defaults it is enabled with TTL 86400. |
| CacheController.OmittedKeysMatchSetProfileDefaults | CacheController.php:96 | With the defaults, an entry with only its actions is filed exactly as `SetProfile(name, actions)` with its default arguments files it. |
| CacheController.SetProfile | CacheController.php:120-141 | The profile stored under the name has these properties: its actions are exactly the truthy trims of the (comma-split) items; its flags are its own ANDed with the global settings; its TTL is as given; it has no dealer. Other profiles, groups and settings are unchanged. The registry invariant is kept. |
| CacheController.SetProfileLastWriteWins | CacheController.php:131 | Setting a profile twice equals setting it once with the second arguments. |
| CacheController.GetDealer | CacheController.php:150-164 | An unknown profile is a fatal "not found" error and nothing changes. The first lookup builds a dealer with a fresh identity and the profile's configuration, and stores it in the record. Later lookups return that dealer unchanged. Other records and all configuration are unchanged. |
| CacheController.GetDealerIsMemoised | CacheController.php:157-163 | Asking twice returns the same dealer and leaves the controller as the first call left it. |
| CacheController.SetProfileRebuildsDealer | CacheController.php:131-137 | After SetProfile, the next lookup builds a new dealer, distinct from the earlier one, carrying the new configuration. |
| CacheController.SearchName | CacheController.php:199-201 | The search name contains no `(`. It is the whole hook when the hook has no `(`. Otherwise it is the prefix that the first `(` follows. |
| CacheController.SearchNameOfGroupHook | CacheController.php:200-214 | For a group name without `(`, the hook `Group(Hook)` fired by the group has search name `Group`. |
| CacheController.InvalidateFrom | CacheController.php:204-208 | Walking the profiles touches only the master tags of profiles subscribed to the search name. It stamps each of them now when the directory exists. It counts one "Invalidation" per subscriber and no other statistic. |
| CacheController.OnAllAction | CacheController.php:196-217 | Only master tags of registered profiles change, each to now. Every profile subscribed to the search name is stamped when its directory exists. For every group listing the hook, the re-fired `Group(Hook)` is routed to the part of the group name before its first `(`, and every profile subscribed to that name whose directory exists is stamped. For a group name without `(` that is the group name itself. Only the "Invalidation" counter changes. Configuration is kept. |
| CacheController.FireGroups | CacheController.php:211-216 | Each group listing the hook re-fires `Group(Hook)`. That hook is routed to the part of the group name before its first `(`, and every profile subscribed to that name whose directory exists ends up stamped. Nothing but master tags changes. |
| CacheController.BudgetDrops | CacheController.php:211-214 | Re-firing lengthens the hook past what groups can list, so re-firing stops. |
| CacheController.OnAllActionWithoutGroups | CacheController.php:204-208 | With no group listing the hook, exactly the subscribers' master tags may change, and "Invalidation" grows by the number of subscribers. |
| CacheController.UnsubscribedProfileKeepsTag | CacheController.php:204-208 | With no group listing the hook, a profile not subscribed to the search name keeps its master tag. |
| CacheController.OnAllActionKeepsEntries | CacheController.php:196-217 | A fired action never changes an entry file or a directory. |
| CacheController.RegisterGroupAction | CacheController.php:227-242 | The group's list is exactly the truthy trims of the (comma-split) items. Other groups, profiles and settings are unchanged. |
| CacheController.RegisterGroupActionLastWriteWins | CacheController.php:238 | Registering a group twice equals registering it once with the second list. |
| CacheController.RegisteredGroupReachesSubscribers | CacheController.php:211-216 | After registering a group G, whose name has no `(`, for hook h, firing h stamps the master tag of every profile subscribed to G whose directory exists. |
| Statistics.AddStatistics | CacheController.php:345-348 | One counter, starting from 0 when unset, grows by one; every other counter is unchanged. |
| Statistics.MergeCounts | CacheController.php:370-374 | Each buffered counter becomes persisted + buffered (or buffered alone); persisted-only counters are unchanged. |
| Statistics.OnShutdown | CacheController.php:354-382 | No report is written iff logging is off or the buffer is empty. Otherwise the report holds the merged counters. |

## Left out

- Dashboard.php, InvalidateWooCommerce.php and the example configuration
  are not part of this model. They are the admin settings page, one
  host-side group registration, and data.
- `Init()`, the singleton, `GetSettings()` and the constructor's setup
  are left out. Settings and the storage directory are fields of the
  controller value.
- CacheController.Boot: it gives a left-out key SetProfile()'s default, which CacheController.php:96 does not do. The code as written is CacheController.BootAsWritten (see "## Findings").
- CacheController.Boot: `add_action('all', …)`, the `fsCacheController-Init` action and the shutdown registration are left out. The listener is the function `OnAllAction` itself.
- `InitLog()` is left out: log trimming and log file creation.
- `Log()` writes a line to `Log.txt` with a `date('r')` prefix. The model
  appends the message to a sequence.
- `OnShutdown()` also parses and writes `Stats.txt`, sorts with
  `natcasesort` and keeps the `Period` line. These are left out. The
  model keeps only the counter merge.
- The `Autoloader` and `GarbageCollector` (an empty stub) are left out.
- `serialize`/`var_export`/`@include`/`unserialize` become one encoding
  `Serialize` with its decoder `Load`. A file that does not decode reads
  as `false`, as `unserialize` failure does.
- Floats, arrays and objects are not modelled as values. `echo` of a
  cached array prints "Array" with a warning. `echo` of an object without
  `__toString` is a fatal error. Neither is modelled.
- A producer that throws is not modelled. In `Get()` and `Output()` the
  exception would propagate after `Fetch` has counted its miss and
  possibly created the master tag, and nothing would be saved.
- `ob_start`/`ob_get_clean` capture is left out. `Output()` takes the
  printed text as a parameter.
- `apply_filters('fsCacheController_Id', …)` is taken as the identity.
- `do_action()` reaches other listeners too. Only this controller's
  listener is modelled.
- `is_readable()` is modelled as "the file exists". Permissions are not
  modelled.
- `in_array()` uses PHP loose comparison. Two numeric strings compare as
  numbers, so `in_array("1e3", ["1000"])` holds. The model uses string
  equality. Hooks, actions and group names that are numeric strings are
  therefore left out. For them a subscription can match that the model
  does not match.
- Write failures are left out: `Save()` always reports `true`. Concurrent
  requests and a clock that goes backwards are left out too. Every call
  reads one `now`.
- PHP integers are unbounded here: `filemtime + TTL` cannot overflow.
- A profile name containing `/` is not modelled. Path distinctness relies
  on the name being a single path segment.
- CacheController.OnAllAction: the count of "Invalidation" is stated as
  at least one per direct subscriber, because re-fired group hooks add
  more. The exact count is stated only when no group lists the hook
  (CacheController.OnAllActionWithoutGroups).
- CacheController.InvalidateFrom: that the full hook name is the
  invalidation reason shows only in the log line that Dealer.Invalidate
  writes. No routing contract states it.
- CacheController.OnAllAction: "only subscribers are touched" is stated
  per profile only for hooks no group lists. Hooks that groups re-fire
  are bounded by the master tags of registered profiles.

## Findings

| source | as written | input that shows it | evidently intended | confidence | as-written member | corrected member |
|---|---|---|---|---|---|---|
| CacheController.php:96 | The constructor passes `$Profile['TTL']`, `$Profile['Logging']` and `$Profile['Enabled']` to SetProfile() whether or not the entry has them. A missing key arrives as `null`, so SetProfile()'s defaults never apply. `null && true` is false and `filemtime + null` adds 0. | The "Album" profile of the example configuration (example.cachecontroller.config.php:28-35) lists only its actions. The comments there say the keys can be omitted. With caching and logging on globally it is filed disabled, with TTL 0. | A left-out key takes SetProfile()'s default: TTL 86400, logging off, caching on. The configuration comment gives the logging default as true. The model follows SetProfile()'s own default, false. | not executed | CacheController.OmittedKeysDisableProfileAsWritten | CacheController.OmittedKeysMatchSetProfileDefaults |

=== FILE: common.dfy ===
/** Option and Result, shared by every module of the model. */
module Common {

  datatype Option<+T> = None | Some(value: T)

  /** A PHP call either returns normally or ends the request with a fatal
      error (trigger_error with E_USER_ERROR, wp_die). */
  datatype Result<+T, +E> = Ok(value: T) | Err(error: E)
}

=== FILE: controller.dfy ===
/** The controller of all dealers: the registry of profiles, the memoised
    dealer per profile, group actions, and the listener that turns every
    fired hook into invalidations of the profiles that subscribe to it. */
module CacheController {

  import opened Common
  import opened PhpStrings
  import opened OrderedMaps
  import opened FileSystem
  import opened Paths
  import opened Statistics
  import opened Runtime
  import Dealer

  /** The two switches of the settings page. */
  datatype Settings = Settings(enabled: bool, logging: bool)

  /** An action list is given either as an array or as a comma separated
      string. */
  datatype ActionList = Csv(text: string) | Items(items: seq<string>)

  /** A Dealer object: its identity and the configuration copied into it
      when it was built. */
  datatype DealerRef = DealerRef(id: nat, profile: Dealer.Profile)

  /** A profile record with its memoised dealer slot. */
  datatype Record = Record(profile: Dealer.Profile, dealer: Option<DealerRef>)

  datatype Controller = Controller(
    settings: Settings,
    storageDir: string,
    profiles: OrderedMap<Record>,
    groups: OrderedMap<seq<string>>,
    nextDealer: nat)

  /** SetProfile's defaults for TTL, logging and enabling. */
  const DefaultTtl: int := 86400
  const DefaultLogging := false
  const DefaultEnabled := true

  /** The controller as a dealer sees it; the global logging switch is the
      setting read at start-up. */
  function HostOf(c: Controller): Host
  {
    Host(c.storageDir, c.settings.logging)
  }

  /** A record is filed under its own name, and a built dealer carries the
      record's configuration and an identity already handed out. */
  predicate RecordFits(c: Controller, s: Slot<Record>)
  {
    && s.value.profile.name == s.key
    && (s.value.dealer.Some? ==>
          s.value.dealer.value.id < c.nextDealer && s.value.dealer.value.profile == s.value.profile)
  }

  ghost predicate Valid(c: Controller)
  {
    && UniqueKeys(c.profiles)
    && forall i :: 0 <= i < |c.profiles| ==> RecordFits(c, c.profiles[i])
  }

  /** `c2` has the same settings, profiles and groups as `c1`; only dealer
      slots may have been filled in. */
  ghost predicate SameConfig(c1: Controller, c2: Controller)
  {
    && c2.settings == c1.settings
    && c2.storageDir == c1.storageDir
    && c2.groups == c1.groups
    && c1.nextDealer <= c2.nextDealer
    && |c2.profiles| == |c1.profiles|
    && forall i :: 0 <= i < |c1.profiles| ==>
         c2.profiles[i].key == c1.profiles[i].key && c2.profiles[i].value.profile == c1.profiles[i].value.profile
  }

  lemma SameConfigTrans(c1: Controller, c2: Controller, c3: Controller)
    requires SameConfig(c1, c2) && SameConfig(c2, c3)
    ensures SameConfig(c1, c3)
  {
  }

  lemma SameConfigHasKey(c1: Controller, c2: Controller, name: string)
    requires SameConfig(c1, c2)
    ensures HasKey(c2.profiles, name) <==> HasKey(c1.profiles, name)
  {
    if HasKey(c1.profiles, name) {
      var i :| 0 <= i < |c1.profiles| && c1.profiles[i].key == name;
      assert c2.profiles[i].key == name;
    }
    if HasKey(c2.profiles, name) {
      var i :| 0 <= i < |c2.profiles| && c2.profiles[i].key == name;
      assert c1.profiles[i].key == name;
    }
  }

  // Profiles

  function SplitActions(actions: ActionList): seq<string>
  {
    match actions
    case Csv(text) => Explode(text, ',')
    case Items(items) => items
  }

  lemma CleanMembership(items: seq<string>)
    ensures forall a :: a in TrimAndFilter(items) <==> IsTruthy(a) && exists x :: x in items && Trim(x) == a
  {
    forall a ensures a in TrimAndFilter(items) <==> IsTruthy(a) && exists x :: x in items && Trim(x) == a {
      TrimAndFilterMembership(items, a);
    }
  }

  /** SetProfile(): stores the cleaned action list and the profile flags
      ANDed with the global settings under `name`, replacing any earlier
      record of that name together with its dealer. */
  function SetProfile(c: Controller, name: string, actions: ActionList, ttl: int, logging: bool, enabled: bool): (r: Controller)
    ensures HasKey(r.profiles, name)
    ensures var rec := Get(r.profiles, name).value;
            && rec.dealer.None?
            && rec.profile.name == name && rec.profile.ttl == ttl
            && rec.profile.logging == (logging && c.settings.logging)
            && rec.profile.enabled == (enabled && c.settings.enabled)
            && forall a :: a in rec.profile.actions <==>
                 IsTruthy(a) && exists x :: x in SplitActions(actions) && Trim(x) == a
    ensures Get(r.profiles, name) == Some(FreshRecord(c.settings, name, actions, ttl, logging, enabled))
    ensures forall n :: n != name ==> Get(r.profiles, n) == Get(c.profiles, n)
    ensures forall n :: HasKey(r.profiles, n) <==> n == name || HasKey(c.profiles, n)
    ensures r.settings == c.settings && r.storageDir == c.storageDir && r.groups == c.groups
    ensures r.nextDealer == c.nextDealer
    ensures Valid(c) ==> Valid(r)
  {
    CleanMembership(SplitActions(actions));
    c.(profiles := Set(c.profiles, name, FreshRecord(c.settings, name, actions, ttl, logging, enabled)))
  }

  /** The record SetProfile() files: cleaned actions, flags ANDed with the
      settings, no dealer yet. */
  function FreshRecord(settings: Settings, name: string, actions: ActionList, ttl: int, logging: bool, enabled: bool): Record
  {
    Record(Dealer.Profile(name, TrimAndFilter(SplitActions(actions)), ttl, logging && settings.logging, enabled && settings.enabled), None)
  }

  /** Registering a name twice keeps the second registration. */
  lemma SetProfileLastWriteWins(c: Controller, name: string,
                                a1: ActionList, t1: int, l1: bool, e1: bool,
                                a2: ActionList, t2: int, l2: bool, e2: bool)
    ensures SetProfile(SetProfile(c, name, a1, t1, l1, e1), name, a2, t2, l2, e2)
            == SetProfile(c, name, a2, t2, l2, e2)
  {
    var r1 := FreshRecord(c.settings, name, a1, t1, l1, e1);
    var r2 := FreshRecord(c.settings, name, a2, t2, l2, e2);
    var c1 := SetProfile(c, name, a1, t1, l1, e1);
    assert c1.settings == c.settings;
    assert c1.profiles == Set(c.profiles, name, r1);
    assert SetProfile(c1, name, a2, t2, l2, e2).profiles == Set(c1.profiles, name, r2);
    LastWriteWins(c.profiles, name, r1, r2);
  }

  /** One entry of the configuration's profile list. The TTL, logging and
      enabling keys may be left out of an entry. */
  datatype ProfileConfig = ProfileConfig(name: string, actions: ActionList,
                                         ttl: Option<int>, logging: Option<bool>, enabled: Option<bool>)

  /** The TTL, logging and enabling arguments SetProfile() receives. */
  datatype Passed = Passed(ttl: int, logging: bool, enabled: bool)

  /** What the constructor passes as written: a missing key reads as PHP
      `null`, which SetProfile() stores as given. As a TTL it adds as 0;
      as a flag it is false under `&&`. */
  function PassedAsWritten(cfg: ProfileConfig): (r: Passed)
    ensures cfg.ttl.Some? ==> r.ttl == cfg.ttl.value
    ensures cfg.ttl.None? ==> r.ttl == 0
    ensures r.logging <==> cfg.logging == Some(true)
    ensures r.enabled <==> cfg.enabled == Some(true)
  {
    Passed(if cfg.ttl.Some? then cfg.ttl.value else 0,
           cfg.logging.Some? && cfg.logging.value,
           cfg.enabled.Some? && cfg.enabled.value)
  }

  /** What a left-out key evidently means: SetProfile()'s own default. */
  function PassedWithDefaults(cfg: ProfileConfig): (r: Passed)
    ensures cfg.ttl.Some? ==> r.ttl == cfg.ttl.value
    ensures cfg.ttl.None? ==> r.ttl == DefaultTtl
    ensures cfg.logging.Some? ==> r.logging == cfg.logging.value
    ensures cfg.logging.None? ==> r.logging == DefaultLogging
    ensures cfg.enabled.Some? ==> r.enabled == cfg.enabled.value
    ensures cfg.enabled.None? ==> r.enabled == DefaultEnabled
  {
    Passed(if cfg.ttl.Some? then cfg.ttl.value else DefaultTtl,
           if cfg.logging.Some? then cfg.logging.value else DefaultLogging,
           if cfg.enabled.Some? then cfg.enabled.value else DefaultEnabled)
  }

  /** The code as written and the defaults agree on an entry exactly when
      it gives both the TTL and the enabling key: a left-out logging key
      is off either way, while a left-out TTL reads 0 instead of 86400 and
      a left-out enabling key reads false instead of true. */
  lemma PassedAgreeIff(cfg: ProfileConfig)
    ensures PassedAsWritten(cfg) == PassedWithDefaults(cfg) <==> cfg.ttl.Some? && cfg.enabled.Some?
  {
  }

  function PassedFor(cfg: ProfileConfig, withDefaults: bool): Passed
  {
    if withDefaults then PassedWithDefaults(cfg) else PassedAsWritten(cfg)
  }

  /** The record the constructor files for one configuration entry. */
  function ConfiguredRecord(settings: Settings, cfg: ProfileConfig, withDefaults: bool): Record
  {
    var a := PassedFor(cfg, withDefaults);
    FreshRecord(settings, cfg.name, cfg.actions, a.ttl, a.logging, a.enabled)
  }

  /** Entry `i` is the last one of its name, so its registration stands. */
  predicate LastOfName(configured: seq<ProfileConfig>, i: int)
  {
    0 <= i < |configured| && forall j :: i < j < |configured| ==> configured[j].name != configured[i].name
  }

  /** The constructor's profile loop: each configured profile is
      registered in order through SetProfile(), with the arguments read
      from the entry as `PassedFor` says. The controller it builds
      satisfies the registry invariant, holds exactly the configured names,
      and files under each name the record of the last entry of that
      name. */
  function BootWith(settings: Settings, storageDir: string, configured: seq<ProfileConfig>, withDefaults: bool): (r: Controller)
    ensures Valid(r)
    ensures r.settings == settings && r.storageDir == storageDir && r.groups == []
    ensures forall n :: HasKey(r.profiles, n) <==> n in ConfiguredNames(configured)
    ensures forall i :: LastOfName(configured, i) ==>
              Get(r.profiles, configured[i].name) == Some(ConfiguredRecord(settings, configured[i], withDefaults))
    decreases |configured|
  {
    if configured == [] then Controller(settings, storageDir, [], [], 0)
    else
      var earlier := configured[..|configured| - 1];
      var last := configured[|configured| - 1];
      var prev := BootWith(settings, storageDir, earlier, withDefaults);
      var a := PassedFor(last, withDefaults);
      var r := SetProfile(prev, last.name, last.actions, a.ttl, a.logging, a.enabled);
      ConfiguredNamesSnoc(configured);
      assert r.profiles == Set(prev.profiles, last.name, ConfiguredRecord(settings, last, withDefaults));
      BootStepRecords(settings, configured, withDefaults, prev.profiles, r.profiles);
      r
  }

  /** One step of the constructor's loop keeps the last-of-name records:
      the new entry's record is filed under its name, and an earlier entry
      that is last of its name has a different name from the new one. */
  lemma BootStepRecords(settings: Settings, configured: seq<ProfileConfig>, withDefaults: bool,
                        before: OrderedMap<Record>, after: OrderedMap<Record>)
    requires configured != []
    requires forall i :: LastOfName(configured[..|configured| - 1], i) ==>
               Get(before, configured[i].name) == Some(ConfiguredRecord(settings, configured[i], withDefaults))
    requires var last := configured[|configured| - 1];
             after == Set(before, last.name, ConfiguredRecord(settings, last, withDefaults))
    ensures forall i :: LastOfName(configured, i) ==>
              Get(after, configured[i].name) == Some(ConfiguredRecord(settings, configured[i], withDefaults))
  {
    var last := configured[|configured| - 1];
    forall i | LastOfName(configured, i)
      ensures Get(after, configured[i].name) == Some(ConfiguredRecord(settings, configured[i], withDefaults))
    {
      if i < |configured| - 1 {
        assert configured[i].name != last.name;
        EarlierLastOfName(configured, i);
      }
    }
  }

  /** An entry that is last of its name stays so when the list is cut
      before the final entry. */
  lemma EarlierLastOfName(configured: seq<ProfileConfig>, i: int)
    requires LastOfName(configured, i) && i < |configured| - 1
    ensures LastOfName(configured[..|configured| - 1], i)
  {
    var earlier := configured[..|configured| - 1];
    forall j | i < j < |earlier| ensures earlier[j].name != earlier[i].name {
      assert earlier[j] == configured[j];
    }
  }

  /** The constructor as the code is written (CacheController.php:96):
      a key left out of a configuration entry is passed as `null`. */
  function BootAsWritten(settings: Settings, storageDir: string, configured: seq<ProfileConfig>): (r: Controller)
    ensures Valid(r)
    ensures forall i :: LastOfName(configured, i) ==> Get(r.profiles, configured[i].name).Some?
    ensures forall i :: LastOfName(configured, i) && configured[i].enabled.None? ==>
              Get(r.profiles, configured[i].name).Some? && !Get(r.profiles, configured[i].name).value.profile.enabled
    ensures forall i :: LastOfName(configured, i) && configured[i].ttl.None? ==>
              Get(r.profiles, configured[i].name).Some? && Get(r.profiles, configured[i].name).value.profile.ttl == 0
  {
    BootWith(settings, storageDir, configured, false)
  }

  /** The constructor as evidently intended: a left-out key takes
      SetProfile()'s default. The code as written passes `null` instead
      (BootAsWritten). */
  function Boot(settings: Settings, storageDir: string, configured: seq<ProfileConfig>): (r: Controller)
    ensures Valid(r)
    ensures r.settings == settings && r.storageDir == storageDir && r.groups == []
    ensures forall n :: HasKey(r.profiles, n) <==> n in ConfiguredNames(configured)
    ensures forall i :: LastOfName(configured, i) ==> Get(r.profiles, configured[i].name).Some?
    ensures forall i :: LastOfName(configured, i) ==>
              Get(r.profiles, configured[i].name).Some? &&
              var rec := Get(r.profiles, configured[i].name).value;
              && rec.profile.ttl == (if configured[i].ttl.Some? then configured[i].ttl.value else DefaultTtl)
              && rec.profile.logging == (settings.logging && (if configured[i].logging.Some? then configured[i].logging.value else DefaultLogging))
              && rec.profile.enabled == (settings.enabled && (if configured[i].enabled.Some? then configured[i].enabled.value else DefaultEnabled))
              && rec.dealer.None?
  {
    var r := BootWith(settings, storageDir, configured, true);
    forall i | LastOfName(configured, i)
      ensures Get(r.profiles, configured[i].name).Some? &&
              var rec := Get(r.profiles, configured[i].name).value;
              && rec.profile.ttl == (if configured[i].ttl.Some? then configured[i].ttl.value else DefaultTtl)
              && rec.profile.logging == (settings.logging && (if configured[i].logging.Some? then configured[i].logging.value else DefaultLogging))
              && rec.profile.enabled == (settings.enabled && (if configured[i].enabled.Some? then configured[i].enabled.value else DefaultEnabled))
              && rec.dealer.None?
    {
      assert Get(r.profiles, configured[i].name) == Some(ConfiguredRecord(settings, configured[i], true));
      DefaultedRecord(settings, configured[i]);
    }
    r
  }

  /** The record filed for an entry when left-out keys take the defaults. */
  lemma DefaultedRecord(settings: Settings, cfg: ProfileConfig)
    ensures var rec := ConfiguredRecord(settings, cfg, true);
            && rec.profile.ttl == (if cfg.ttl.Some? then cfg.ttl.value else DefaultTtl)
            && rec.profile.logging == (settings.logging && (if cfg.logging.Some? then cfg.logging.value else DefaultLogging))
            && rec.profile.enabled == (settings.enabled && (if cfg.enabled.Some? then cfg.enabled.value else DefaultEnabled))
            && rec.dealer.None?
  {
    var a := PassedWithDefaults(cfg);
    assert ConfiguredRecord(settings, cfg, true) == FreshRecord(settings, cfg.name, cfg.actions, a.ttl, a.logging, a.enabled);
  }

  /** An entry that lists only its actions: its logging and enabling are
      left to SetProfile()'s defaults. */
  function ActionsOnly(name: string, actions: ActionList): ProfileConfig
  {
    ProfileConfig(name, actions, None, None, None)
  }

  /** As written, a profile configured without the enabling key is
      disabled, and its TTL is 0, even with caching switched on globally;
      registered with the defaults it is enabled with a one-day TTL. */
  lemma OmittedKeysDisableProfileAsWritten(storageDir: string, name: string, actions: ActionList)
    ensures var settings := Settings(true, true);
            var asWritten := Get(BootAsWritten(settings, storageDir, [ActionsOnly(name, actions)]).profiles, name).value.profile;
            var intended := Get(Boot(settings, storageDir, [ActionsOnly(name, actions)]).profiles, name).value.profile;
            && !asWritten.enabled && asWritten.ttl == 0
            && intended.enabled && intended.ttl == 86400
  {
    assert LastOfName([ActionsOnly(name, actions)], 0);
  }

  /** With the defaults, an entry without the enabling key is registered
      exactly as SetProfile(name, actions) with its default arguments
      would register it. */
  lemma OmittedKeysMatchSetProfileDefaults(settings: Settings, storageDir: string, name: string, actions: ActionList)
    ensures var booted := Boot(settings, storageDir, [ActionsOnly(name, actions)]);
            var direct := SetProfile(Controller(settings, storageDir, [], [], 0), name, actions,
                                     DefaultTtl, DefaultLogging, DefaultEnabled);
            Get(booted.profiles, name) == Get(direct.profiles, name)
  {
    assert LastOfName([ActionsOnly(name, actions)], 0);
  }

  /** The names the configuration lists. */
  function ConfiguredNames(configured: seq<ProfileConfig>): set<string>
  {
    set i | 0 <= i < |configured| :: configured[i].name
  }

  lemma ConfiguredNamesSnoc(configured: seq<ProfileConfig>)
    requires configured != []
    ensures ConfiguredNames(configured)
            == ConfiguredNames(configured[..|configured| - 1]) + {configured[|configured| - 1].name}
  {
    var earlier := configured[..|configured| - 1];
    forall n | n in ConfiguredNames(configured)
      ensures n in ConfiguredNames(earlier) + {configured[|configured| - 1].name}
    {
      var i :| 0 <= i < |configured| && configured[i].name == n;
      if i < |earlier| {
        assert earlier[i] == configured[i];
      }
    }
    forall n | n in ConfiguredNames(earlier) ensures n in ConfiguredNames(configured) {
      var i :| 0 <= i < |earlier| && earlier[i].name == n;
      assert configured[i] == earlier[i];
    }
  }

  // Dealers

  datatype Lookup = Lookup(controller: Controller, dealer: Result<DealerRef, Fatal>)

  /** GetDealer(): the profile's dealer, built on first use and memoised in
      the profile record; an unknown profile ends the request. */
  function GetDealer(c: Controller, name: string): (r: Lookup)
    requires Valid(c)
    ensures Valid(r.controller) && SameConfig(c, r.controller)
    ensures !HasKey(c.profiles, name) <==> r.dealer == Err(ProfileNotFound(name))
    ensures !HasKey(c.profiles, name) ==> r.controller == c
    ensures HasKey(c.profiles, name) ==>
              && r.dealer.Ok?
              && r.dealer.value.profile == Get(c.profiles, name).value.profile
              && Get(r.controller.profiles, name) == Some(Record(r.dealer.value.profile, Some(r.dealer.value)))
    ensures HasKey(c.profiles, name) && Get(c.profiles, name).value.dealer.Some? ==>
              r.dealer == Ok(Get(c.profiles, name).value.dealer.value) && r.controller == c
    ensures HasKey(c.profiles, name) && Get(c.profiles, name).value.dealer.None? ==>
              r.dealer.value.id == c.nextDealer && r.controller.nextDealer == c.nextDealer + 1
    ensures forall n :: n != name ==> Get(r.controller.profiles, n) == Get(c.profiles, n)
  {
    match IndexOf(c.profiles, name)
    case None => Lookup(c, Err(ProfileNotFound(name)))
    case Some(i) =>
      var rec := c.profiles[i].value;
      assert RecordFits(c, c.profiles[i]);
      if rec.dealer.Some? then
        Lookup(c, Ok(rec.dealer.value))
      else
        var d := DealerRef(c.nextDealer, rec.profile);
        var built := c.(profiles := Set(c.profiles, name, Record(rec.profile, Some(d))), nextDealer := c.nextDealer + 1);
        assert forall j :: 0 <= j < |built.profiles| ==> RecordFits(built, built.profiles[j]) by {
          forall j | 0 <= j < |built.profiles| ensures RecordFits(built, built.profiles[j]) {
            if c.profiles[j].key != name {
              assert RecordFits(c, c.profiles[j]);
            }
          }
        }
        Lookup(built, Ok(d))
  }

  /** Asking twice for a dealer returns the same object and changes
      nothing the second time. */
  lemma GetDealerIsMemoised(c: Controller, name: string)
    requires Valid(c) && HasKey(c.profiles, name)
    ensures var first := GetDealer(c, name);
            GetDealer(first.controller, name) == first
  {
    var first := GetDealer(c, name);
    SameConfigHasKey(c, first.controller, name);
  }

  /** Setting a profile again drops its dealer: the next lookup builds a new
      dealer, distinct from every earlier one, with the new configuration. */
  lemma SetProfileRebuildsDealer(c: Controller, name: string, actions: ActionList, ttl: int, logging: bool, enabled: bool)
    requires Valid(c) && HasKey(c.profiles, name)
    ensures var first := GetDealer(c, name);
            var reset := SetProfile(first.controller, name, actions, ttl, logging, enabled);
            var second := GetDealer(reset, name);
            && second.dealer.Ok?
            && second.dealer.value.id != first.dealer.value.id
            && second.dealer.value.profile == Get(reset.profiles, name).value.profile
  {
    var first := GetDealer(c, name);
    var i := IndexOf(first.controller.profiles, name).value;
    assert RecordFits(first.controller, first.controller.profiles[i]);
    UniqueIndex(first.controller.profiles, name, i);
  }

  // Routing hooks to invalidations

  /** `explode('(', $HookName)`: the part before the first "(" when there
      is one, the whole hook name otherwise. */
  function SearchName(hook: string): (r: string)
    ensures '(' !in r
    ensures '(' !in hook ==> r == hook
    ensures '(' in hook ==> r + "(" <= hook
  {
    var parts := Explode(hook, '(');
    if |parts| > 1 then
      var tail := Implode(parts[1..], '(');
      assert hook == parts[0] + "(" + tail;
      assert (parts[0] + "(") <= hook;
      parts[0]
    else
      hook
  }

  /** The hook a group re-fires, `Group(Hook)`, is routed under `Group`. */
  lemma SearchNameOfGroupHook(group: string, hook: string)
    requires '(' !in group
    ensures SearchName(group + "(" + hook + ")") == group
  {
    assert group + "(" + hook + ")" == group + ['('] + (hook + ")");
    ExplodeAtFirst(group, '(', hook + ")");
  }

  datatype Routed = Routed(controller: Controller, state: State)

  /** The profiles as they were when the loop started: PHP's foreach walks
      a copy of the array, while the loop body fills dealer slots. Names
      and configurations agree with the live registry. */
  ghost predicate Mirrors(snapshot: OrderedMap<Record>, c: Controller)
  {
    && |snapshot| == |c.profiles|
    && forall i :: 0 <= i < |snapshot| ==>
         snapshot[i].key == c.profiles[i].key && snapshot[i].value.profile == c.profiles[i].value.profile
  }

  /** `in_array($SearchName, $Profile['InvalidatingActions'])` */
  predicate Subscribes(s: Slot<Record>, search: string)
  {
    search in s.value.profile.actions
  }

  /** The master tags of the profiles at positions `i..` that subscribe to
      `search`. */
  function SubscriberMarkers(storageDir: string, snapshot: OrderedMap<Record>, i: nat, search: string): set<string>
  {
    set j | i <= j < |snapshot| && Subscribes(snapshot[j], search) :: MasterTagPath(storageDir, snapshot[j].key)
  }

  /** The number of profiles at positions `i..` that subscribe to `search`. */
  function SubscriberCount(snapshot: OrderedMap<Record>, i: nat, search: string): nat
    decreases |snapshot| - i
  {
    if i >= |snapshot| then 0
    else (if Subscribes(snapshot[i], search) then 1 else 0) + SubscriberCount(snapshot, i + 1, search)
  }

  /** The master tags of every registered profile. */
  function AllMarkers(storageDir: string, profiles: OrderedMap<Record>): set<string>
  {
    set j | 0 <= j < |profiles| :: MasterTagPath(storageDir, profiles[j].key)
  }

  lemma SubscriberMarkersInAll(storageDir: string, profiles: OrderedMap<Record>, search: string)
    ensures SubscriberMarkers(storageDir, profiles, 0, search) <= AllMarkers(storageDir, profiles)
  {
  }

  /** Every profile at positions `i..` that subscribes to `search` and whose
      directory existed in `fs0` has its master tag stamped `now` in `fs`. */
  ghost predicate StampedFrom(storageDir: string, snapshot: OrderedMap<Record>, i: nat, fs0: Fs, fs: Fs, search: string, now: int)
  {
    forall k :: i <= k < |snapshot| && Subscribes(snapshot[k], search)
                && ProfileDir(storageDir, snapshot[k].key) in fs0.dirs ==>
                  FileTime(fs, MasterTagPath(storageDir, snapshot[k].key)) == now
  }

  /** A stamp survives later touches, which only ever stamp `now`. */
  lemma StampKept(fs1: Fs, fs2: Fs, paths: set<string>, path: string, now: int)
    requires FileTime(fs1, path) == now
    requires TouchedOnly(fs1, fs2, paths, now)
    ensures FileTime(fs2, path) == now
  {
    if path in fs2.files && path in fs1.files && fs2.files[path] == fs1.files[path] {
    } else if path in fs2.files {
      assert path in paths;
    }
  }

  lemma StampsSurvive(storageDir: string, snapshot: OrderedMap<Record>, i: nat, fs0: Fs, fs1: Fs, fs2: Fs,
                      search: string, paths: set<string>, now: int)
    requires StampedFrom(storageDir, snapshot, i, fs0, fs1, search, now)
    requires TouchedOnly(fs1, fs2, paths, now)
    ensures StampedFrom(storageDir, snapshot, i, fs0, fs2, search, now)
  {
    forall k | i <= k < |snapshot| && Subscribes(snapshot[k], search)
               && ProfileDir(storageDir, snapshot[k].key) in fs0.dirs
      ensures FileTime(fs2, MasterTagPath(storageDir, snapshot[k].key)) == now
    {
      StampKept(fs1, fs2, paths, MasterTagPath(storageDir, snapshot[k].key), now);
    }
  }

  lemma SameConfigMirrors(snapshot: OrderedMap<Record>, c1: Controller, c2: Controller)
    requires Mirrors(snapshot, c1) && SameConfig(c1, c2)
    ensures Mirrors(snapshot, c2)
  {
  }

  lemma SameConfigMarkers(c1: Controller, c2: Controller)
    requires SameConfig(c1, c2)
    ensures AllMarkers(c2.storageDir, c2.profiles) == AllMarkers(c1.storageDir, c1.profiles)
  {
    forall m | m in AllMarkers(c1.storageDir, c1.profiles) ensures m in AllMarkers(c2.storageDir, c2.profiles) {
      var j :| 0 <= j < |c1.profiles| && m == MasterTagPath(c1.storageDir, c1.profiles[j].key);
      assert m == MasterTagPath(c2.storageDir, c2.profiles[j].key);
    }
    forall m | m in AllMarkers(c2.storageDir, c2.profiles) ensures m in AllMarkers(c1.storageDir, c1.profiles) {
      var j :| 0 <= j < |c2.profiles| && m == MasterTagPath(c2.storageDir, c2.profiles[j].key);
      assert m == MasterTagPath(c1.storageDir, c1.profiles[j].key);
    }
  }

  /** The first loop of OnAllAction(): every profile of the snapshot, from
      position `i` on, whose action list holds `search` is asked for its
      dealer, which invalidates with the full hook name as the reason. */
  function InvalidateFrom(c: Controller, snapshot: OrderedMap<Record>, i: nat, st: State,
                          search: string, hook: string, now: int): (r: Routed)
    requires Valid(c) && Mirrors(snapshot, c) && i <= |snapshot|
    ensures Valid(r.controller) && SameConfig(c, r.controller)
    ensures TouchedOnly(st.fs, r.state.fs, SubscriberMarkers(c.storageDir, snapshot, i, search), now)
    ensures StampedFrom(c.storageDir, snapshot, i, st.fs, r.state.fs, search, now)
    ensures Count(r.state.stats, Dealer.Invalidation) == Count(st.stats, Dealer.Invalidation) + SubscriberCount(snapshot, i, search)
    ensures r.state.stats - {Dealer.Invalidation} == st.stats - {Dealer.Invalidation}
    decreases |snapshot| - i
  {
    if i == |snapshot| then
      TouchedOnlyRefl(st.fs, {}, now);
      Routed(c, st)
    else
      var markers := SubscriberMarkers(c.storageDir, snapshot, i, search);
      assert SubscriberMarkers(c.storageDir, snapshot, i + 1, search) <= markers;
      if Subscribes(snapshot[i], search) then
        var name := snapshot[i].key;
        assert c.profiles[i].key == name;
        UniqueIndex(c.profiles, name, i);
        assert RecordFits(c, c.profiles[i]);
        var looked := GetDealer(c, name);
        var d := looked.dealer.value;
        var st1 := Dealer.Invalidate(HostOf(c), d.profile, st, hook, now);
        var m := MasterTagPath(c.storageDir, name);
        assert m in markers;
        TouchedOnlyWiden(st.fs, st1.fs, {m}, markers, now);
        SameConfigMirrors(snapshot, c, looked.controller);
        var rest := InvalidateFrom(looked.controller, snapshot, i + 1, st1, search, hook, now);
        TouchedOnlyWiden(st1.fs, rest.state.fs, SubscriberMarkers(c.storageDir, snapshot, i + 1, search), markers, now);
        TouchedOnlyTrans(st.fs, st1.fs, rest.state.fs, markers, now);
        assert StampedFrom(c.storageDir, snapshot, i, st.fs, rest.state.fs, search, now) by {
          if ProfileDir(c.storageDir, name) in st.fs.dirs {
            StampKept(st1.fs, rest.state.fs, SubscriberMarkers(c.storageDir, snapshot, i + 1, search), m, now);
          }
        }
        rest
      else
        var rest := InvalidateFrom(c, snapshot, i + 1, st, search, hook, now);
        TouchedOnlyWiden(st.fs, rest.state.fs, SubscriberMarkers(c.storageDir, snapshot, i + 1, search), markers, now);
        rest
  }

  /** The longest action name listed in any group. */
  function MaxActionLength(groups: OrderedMap<seq<string>>): (n: nat)
    ensures forall i :: 0 <= i < |groups| ==> forall a :: a in groups[i].value ==> |a| <= n
  {
    if groups == [] then 0
    else
      var head := LongestLength(groups[0].value);
      var tail := MaxActionLength(groups[1..]);
      assert forall i :: 1 <= i < |groups| ==> groups[i] == groups[1..][i - 1];
      if head < tail then tail else head
  }

  function LongestLength(items: seq<string>): (n: nat)
    ensures forall a :: a in items ==> |a| <= n
  {
    if items == [] then 0
    else
      var tail := LongestLength(items[1..]);
      assert forall a :: a in items ==> a == items[0] || a in items[1..];
      if |items[0]| < tail then tail else |items[0]|
  }

  /** A hook can be re-fired by a group only while it is no longer than the
      longest listed action; every re-fire makes it longer. */
  function Budget(groups: OrderedMap<seq<string>>, hook: string): nat
  {
    if |hook| <= MaxActionLength(groups) then MaxActionLength(groups) - |hook| + 1 else 0
  }

  /** Re-firing a listed hook uses up budget. */
  lemma BudgetDrops(groups: OrderedMap<seq<string>>, i: nat, hook: string)
    requires i < |groups| && hook in groups[i].value
    ensures Budget(groups, GroupHook(groups[i].key, hook)) < Budget(groups, hook)
  {
  }

  /** The action a group fires, `Group(Hook)`. */
  function GroupHook(group: string, hook: string): string
  {
    group + "(" + hook + ")"
  }

  /** OnAllAction(), the listener attached to WordPress's 'all' hook, for
      hook `hook`: invalidation of every profile that subscribes to its
      search name, then, for every group listing the hook, the action
      `Group(Hook)`, which WordPress routes back through the same
      listener. */
  function OnAllAction(c: Controller, st: State, hook: string, now: int): (r: Routed)
    requires Valid(c)
    ensures Valid(r.controller) && SameConfig(c, r.controller)
    ensures TouchedOnly(st.fs, r.state.fs, AllMarkers(c.storageDir, c.profiles), now)
    ensures StampedFrom(c.storageDir, c.profiles, 0, st.fs, r.state.fs, SearchName(hook), now)
    ensures forall j :: 0 <= j < |c.groups| && hook in c.groups[j].value ==>
              StampedFrom(c.storageDir, c.profiles, 0, st.fs, r.state.fs, SearchName(GroupHook(c.groups[j].key, hook)), now)
    ensures forall j :: 0 <= j < |c.groups| && hook in c.groups[j].value && '(' !in c.groups[j].key ==>
              StampedFrom(c.storageDir, c.profiles, 0, st.fs, r.state.fs, c.groups[j].key, now)
    ensures Count(r.state.stats, Dealer.Invalidation) >= Count(st.stats, Dealer.Invalidation) + SubscriberCount(c.profiles, 0, SearchName(hook))
    ensures r.state.stats - {Dealer.Invalidation} == st.stats - {Dealer.Invalidation}
    decreases Budget(c.groups, hook), 1
  {
    var search := SearchName(hook);
    var inv := InvalidateFrom(c, c.profiles, 0, st, search, hook, now);
    SubscriberMarkersInAll(c.storageDir, c.profiles, search);
    TouchedOnlyWiden(st.fs, inv.state.fs, SubscriberMarkers(c.storageDir, c.profiles, 0, search),
                     AllMarkers(c.storageDir, c.profiles), now);
    var fired := FireGroups(inv.controller, inv.state, 0, hook, now);
    SameConfigTrans(c, inv.controller, fired.controller);
    SameConfigMarkers(c, inv.controller);
    TouchedOnlyTrans(st.fs, inv.state.fs, fired.state.fs, AllMarkers(c.storageDir, c.profiles), now);
    StampsSurvive(c.storageDir, c.profiles, 0, st.fs, inv.state.fs, fired.state.fs, search,
                  AllMarkers(c.storageDir, c.profiles), now);
    GroupStampsCarry(c, inv.controller, st.fs, inv.state.fs, fired.state.fs, hook, now, 0);
    fired
  }

  /** The group stamps FireGroups leaves, stated against the controller and
      disk the listener started from: the configuration is the same and
      the directories are the same. A group name without `(` is its own
      search name. */
  lemma GroupStampsCarry(c: Controller, c2: Controller, fs0: Fs, fs1: Fs, fs: Fs, hook: string, now: int, from: nat)
    requires SameConfig(c, c2) && fs1.dirs == fs0.dirs
    requires forall j :: from <= j < |c2.groups| && hook in c2.groups[j].value ==>
               StampedFrom(c2.storageDir, c2.profiles, 0, fs1, fs, SearchName(GroupHook(c2.groups[j].key, hook)), now)
    ensures forall j :: from <= j < |c.groups| && hook in c.groups[j].value ==>
              StampedFrom(c.storageDir, c.profiles, 0, fs0, fs, SearchName(GroupHook(c.groups[j].key, hook)), now)
    ensures forall j :: from <= j < |c.groups| && hook in c.groups[j].value && '(' !in c.groups[j].key ==>
              StampedFrom(c.storageDir, c.profiles, 0, fs0, fs, c.groups[j].key, now)
  {
    forall j | from <= j < |c.groups| && hook in c.groups[j].value
      ensures StampedFrom(c.storageDir, c.profiles, 0, fs0, fs, SearchName(GroupHook(c.groups[j].key, hook)), now)
    {
      assert StampedFrom(c2.storageDir, c2.profiles, 0, fs1, fs, SearchName(GroupHook(c.groups[j].key, hook)), now);
    }
    forall j | from <= j < |c.groups| && hook in c.groups[j].value && '(' !in c.groups[j].key
      ensures SearchName(GroupHook(c.groups[j].key, hook)) == c.groups[j].key
    {
      SearchNameOfGroupHook(c.groups[j].key, hook);
    }
  }

  /** The second loop of OnAllAction(), from group `i` on. */
  function FireGroups(c: Controller, st: State, i: nat, hook: string, now: int): (r: Routed)
    requires Valid(c) && i <= |c.groups|
    ensures Valid(r.controller) && SameConfig(c, r.controller)
    ensures TouchedOnly(st.fs, r.state.fs, AllMarkers(c.storageDir, c.profiles), now)
    ensures forall j :: i <= j < |c.groups| && hook in c.groups[j].value ==>
              StampedFrom(c.storageDir, c.profiles, 0, st.fs, r.state.fs, SearchName(GroupHook(c.groups[j].key, hook)), now)
    ensures Count(r.state.stats, Dealer.Invalidation) >= Count(st.stats, Dealer.Invalidation)
    ensures r.state.stats - {Dealer.Invalidation} == st.stats - {Dealer.Invalidation}
    decreases Budget(c.groups, hook), 0, |c.groups| - i
  {
    if i == |c.groups| then
      TouchedOnlyRefl(st.fs, AllMarkers(c.storageDir, c.profiles), now);
      Routed(c, st)
    else
      var group := c.groups[i].key;
      if hook in c.groups[i].value then
        BudgetDrops(c.groups, i, hook);
        var fired := OnAllAction(c, st, GroupHook(group, hook), now);
        SameConfigMarkers(c, fired.controller);
        var rest := FireGroups(fired.controller, fired.state, i + 1, hook, now);
        FireStep(c, st, i, hook, now, fired, rest);
        rest
      else
        var rest := FireGroups(c, st, i + 1, hook, now);
        FireSkip(c, st, i, hook, now, rest);
        rest
  }

  /** A group that does not list the hook fires nothing, so the promises
      of FireGroups from the next group on hold from this one. */
  lemma FireSkip(c: Controller, st: State, i: nat, hook: string, now: int, rest: Routed)
    requires Valid(c) && i < |c.groups| && hook !in c.groups[i].value
    requires forall j :: i + 1 <= j < |c.groups| && hook in c.groups[j].value ==>
               StampedFrom(c.storageDir, c.profiles, 0, st.fs, rest.state.fs, SearchName(GroupHook(c.groups[j].key, hook)), now)
    ensures forall j :: i <= j < |c.groups| && hook in c.groups[j].value ==>
              StampedFrom(c.storageDir, c.profiles, 0, st.fs, rest.state.fs, SearchName(GroupHook(c.groups[j].key, hook)), now)
  {
  }

  /** One fired group followed by the remaining groups keeps the promises
      of FireGroups. */
  lemma FireStep(c: Controller, st: State, i: nat, hook: string, now: int, fired: Routed, rest: Routed)
    requires Valid(c) && i < |c.groups| && hook in c.groups[i].value
    requires SameConfig(c, fired.controller)
    requires TouchedOnly(st.fs, fired.state.fs, AllMarkers(c.storageDir, c.profiles), now)
    requires StampedFrom(c.storageDir, c.profiles, 0, st.fs, fired.state.fs, SearchName(GroupHook(c.groups[i].key, hook)), now)
    requires Count(fired.state.stats, Dealer.Invalidation) >= Count(st.stats, Dealer.Invalidation)
    requires fired.state.stats - {Dealer.Invalidation} == st.stats - {Dealer.Invalidation}
    requires Valid(rest.controller) && SameConfig(fired.controller, rest.controller)
    requires TouchedOnly(fired.state.fs, rest.state.fs, AllMarkers(fired.controller.storageDir, fired.controller.profiles), now)
    requires forall j :: i + 1 <= j < |fired.controller.groups| && hook in fired.controller.groups[j].value ==>
               StampedFrom(fired.controller.storageDir, fired.controller.profiles, 0, fired.state.fs, rest.state.fs, SearchName(GroupHook(fired.controller.groups[j].key, hook)), now)
    requires Count(rest.state.stats, Dealer.Invalidation) >= Count(fired.state.stats, Dealer.Invalidation)
    requires rest.state.stats - {Dealer.Invalidation} == fired.state.stats - {Dealer.Invalidation}
    ensures SameConfig(c, rest.controller)
    ensures TouchedOnly(st.fs, rest.state.fs, AllMarkers(c.storageDir, c.profiles), now)
    ensures forall j :: i <= j < |c.groups| && hook in c.groups[j].value ==>
              StampedFrom(c.storageDir, c.profiles, 0, st.fs, rest.state.fs, SearchName(GroupHook(c.groups[j].key, hook)), now)
    ensures Count(rest.state.stats, Dealer.Invalidation) >= Count(st.stats, Dealer.Invalidation)
    ensures rest.state.stats - {Dealer.Invalidation} == st.stats - {Dealer.Invalidation}
  {
    var group := c.groups[i].key;
    SameConfigTrans(c, fired.controller, rest.controller);
    SameConfigMarkers(c, fired.controller);
    TouchedOnlyTrans(st.fs, fired.state.fs, rest.state.fs, AllMarkers(c.storageDir, c.profiles), now);
    FireStepStamps(c, st, i, hook, now, fired, rest);
  }

  /** The stamp part of FireStep: group `i`'s stamps survive the later
      groups, and the later groups' stamps were made after group `i` fired. */
  lemma FireStepStamps(c: Controller, st: State, i: nat, hook: string, now: int, fired: Routed, rest: Routed)
    requires Valid(c) && i < |c.groups| && hook in c.groups[i].value
    requires SameConfig(c, fired.controller)
    requires TouchedOnly(st.fs, fired.state.fs, AllMarkers(c.storageDir, c.profiles), now)
    requires StampedFrom(c.storageDir, c.profiles, 0, st.fs, fired.state.fs, SearchName(GroupHook(c.groups[i].key, hook)), now)
    requires SameConfig(fired.controller, rest.controller)
    requires TouchedOnly(fired.state.fs, rest.state.fs, AllMarkers(fired.controller.storageDir, fired.controller.profiles), now)
    requires forall j :: i + 1 <= j < |fired.controller.groups| && hook in fired.controller.groups[j].value ==>
               StampedFrom(fired.controller.storageDir, fired.controller.profiles, 0, fired.state.fs, rest.state.fs, SearchName(GroupHook(fired.controller.groups[j].key, hook)), now)
    ensures forall j :: i <= j < |c.groups| && hook in c.groups[j].value ==>
              StampedFrom(c.storageDir, c.profiles, 0, st.fs, rest.state.fs, SearchName(GroupHook(c.groups[j].key, hook)), now)
  {
    var search := SearchName(GroupHook(c.groups[i].key, hook));
    OwnStampSurvives(c, st, search, now, fired, rest);
    GroupStampsCarry(c, fired.controller, st.fs, fired.state.fs, rest.state.fs, hook, now, i + 1);
    forall j | i <= j < |c.groups| && hook in c.groups[j].value
      ensures StampedFrom(c.storageDir, c.profiles, 0, st.fs, rest.state.fs, SearchName(GroupHook(c.groups[j].key, hook)), now)
    {
      if j == i {
        assert SearchName(GroupHook(c.groups[j].key, hook)) == search;
      }
    }
  }

  /** The stamps one fired group made are not undone by the groups fired
      after it, which touch only master tags, at the same time. */
  lemma OwnStampSurvives(c: Controller, st: State, search: string, now: int, fired: Routed, rest: Routed)
    requires SameConfig(c, fired.controller)
    requires StampedFrom(c.storageDir, c.profiles, 0, st.fs, fired.state.fs, search, now)
    requires TouchedOnly(fired.state.fs, rest.state.fs, AllMarkers(fired.controller.storageDir, fired.controller.profiles), now)
    ensures StampedFrom(c.storageDir, c.profiles, 0, st.fs, rest.state.fs, search, now)
  {
    SameConfigMarkers(c, fired.controller);
    StampsSurvive(c.storageDir, c.profiles, 0, st.fs, fired.state.fs, rest.state.fs, search,
                  AllMarkers(c.storageDir, c.profiles), now);
  }

  // Group actions

  /** RegisterGroupAction(): stores the cleaned action list under the group
      name, replacing an earlier list of that name. */
  function RegisterGroupAction(c: Controller, name: string, actions: ActionList): (r: Controller)
    ensures HasKey(r.groups, name)
    ensures forall a :: a in Get(r.groups, name).value <==>
              IsTruthy(a) && exists x :: x in SplitActions(actions) && Trim(x) == a
    ensures forall n :: n != name ==> Get(r.groups, n) == Get(c.groups, n)
    ensures r.settings == c.settings && r.storageDir == c.storageDir && r.profiles == c.profiles
    ensures r.nextDealer == c.nextDealer
    ensures Valid(c) ==> Valid(r)
  {
    CleanMembership(SplitActions(actions));
    c.(groups := Set(c.groups, name, TrimAndFilter(SplitActions(actions))))
  }

  lemma RegisterGroupActionLastWriteWins(c: Controller, name: string, a1: ActionList, a2: ActionList)
    ensures RegisterGroupAction(RegisterGroupAction(c, name, a1), name, a2) == RegisterGroupAction(c, name, a2)
  {
    LastWriteWins(c.groups, name, TrimAndFilter(SplitActions(a1)), TrimAndFilter(SplitActions(a2)));
  }

  // Properties of the listener

  lemma {:induction false} FireGroupsIdle(c: Controller, st: State, i: nat, hook: string, now: int)
    requires Valid(c) && i <= |c.groups|
    requires forall j :: i <= j < |c.groups| ==> hook !in c.groups[j].value
    ensures FireGroups(c, st, i, hook, now) == Routed(c, st)
    decreases |c.groups| - i
  {
    if i < |c.groups| {
      FireGroupsIdle(c, st, i + 1, hook, now);
    }
  }

  /** When no group lists the hook, a fired action stamps exactly the
      master tags of the subscribing profiles and counts one invalidation
      per subscriber. */
  lemma OnAllActionWithoutGroups(c: Controller, st: State, hook: string, now: int)
    requires Valid(c)
    requires forall j :: 0 <= j < |c.groups| ==> hook !in c.groups[j].value
    ensures var r := OnAllAction(c, st, hook, now);
            && TouchedOnly(st.fs, r.state.fs, SubscriberMarkers(c.storageDir, c.profiles, 0, SearchName(hook)), now)
            && Count(r.state.stats, Dealer.Invalidation) == Count(st.stats, Dealer.Invalidation) + SubscriberCount(c.profiles, 0, SearchName(hook))
  {
    var inv := InvalidateFrom(c, c.profiles, 0, st, SearchName(hook), hook, now);
    FireGroupsIdle(inv.controller, inv.state, 0, hook, now);
  }

  /** A profile that does not subscribe to the search name keeps its master
      tag when no group lists the hook. */
  lemma UnsubscribedProfileKeepsTag(c: Controller, st: State, hook: string, now: int, k: nat)
    requires Valid(c) && k < |c.profiles|
    requires forall j :: 0 <= j < |c.groups| ==> hook !in c.groups[j].value
    requires !Subscribes(c.profiles[k], SearchName(hook))
    ensures var m := MasterTagPath(c.storageDir, c.profiles[k].key);
            var r := OnAllAction(c, st, hook, now);
            (m in r.state.fs.files <==> m in st.fs.files)
            && (m in st.fs.files ==> r.state.fs.files[m] == st.fs.files[m])
  {
    var m := MasterTagPath(c.storageDir, c.profiles[k].key);
    var markers := SubscriberMarkers(c.storageDir, c.profiles, 0, SearchName(hook));
    OnAllActionWithoutGroups(c, st, hook, now);
    assert m !in markers by {
      if m in markers {
        var j :| 0 <= j < |c.profiles| && Subscribes(c.profiles[j], SearchName(hook))
                 && m == MasterTagPath(c.storageDir, c.profiles[j].key);
        MasterTagInjective(c.storageDir, c.profiles[j].key, c.profiles[k].key);
      }
    }
    var r := OnAllAction(c, st, hook, now);
    if m in st.fs.files {
      assert m in st.fs.files - markers;
      assert m in r.state.fs.files - markers;
    }
    if m in r.state.fs.files {
      assert m in r.state.fs.files - markers;
    }
  }

  /** Fired actions never touch a cache entry, of any profile. */
  lemma OnAllActionKeepsEntries(c: Controller, st: State, hook: string, now: int, q: string, key: string)
    requires Valid(c)
    ensures var e := EntryPath(c.storageDir, q, key);
            var r := OnAllAction(c, st, hook, now);
            (e in r.state.fs.files <==> e in st.fs.files)
            && (e in st.fs.files ==> r.state.fs.files[e] == st.fs.files[e])
            && r.state.fs.dirs == st.fs.dirs
  {
    var e := EntryPath(c.storageDir, q, key);
    var markers := AllMarkers(c.storageDir, c.profiles);
    var r := OnAllAction(c, st, hook, now);
    if e in markers {
      var j :| 0 <= j < |c.profiles| && e == MasterTagPath(c.storageDir, c.profiles[j].key);
      MasterTagIsNotEntry(c.storageDir, c.profiles[j].key, q, key);
    }
    if e in st.fs.files {
      assert e in st.fs.files - markers;
      assert e in r.state.fs.files - markers;
    }
    if e in r.state.fs.files {
      assert e in r.state.fs.files - markers;
    }
  }

  lemma SingleActionList(h: string)
    requires IsTruthy(h) && IsTrimmed(h)
    ensures TrimAndFilter(SplitActions(Items([h]))) == [h]
  {
    TrimAndFilterSingle(h);
  }

  /** A group registered for hook `h` makes every action in the group's
      name reach its subscribers: when `h` fires, each profile listing the
      group name, whose directory exists, gets its master tag stamped. */
  lemma RegisteredGroupReachesSubscribers(c: Controller, group: string, h: string,
                                          st: State, now: int, k: nat)
    requires Valid(c) && '(' !in group && IsTruthy(h) && IsTrimmed(h)
    requires k < |c.profiles|
    ensures var c1 := RegisterGroupAction(c, group, Items([h]));
            var r := OnAllAction(c1, st, h, now);
            Subscribes(c1.profiles[k], group) && ProfileDir(c.storageDir, c.profiles[k].key) in st.fs.dirs ==>
              FileTime(r.state.fs, MasterTagPath(c.storageDir, c.profiles[k].key)) == now
  {
    var c1 := RegisterGroupAction(c, group, Items([h]));
    SingleActionList(h);
    assert Get(c1.groups, group) == Some([h]);
    var j := IndexOf(c1.groups, group).value;
    assert c1.groups[j].key == group && h in c1.groups[j].value;
    var r := OnAllAction(c1, st, h, now);
    assert StampedFrom(c1.storageDir, c1.profiles, 0, st.fs, r.state.fs, group, now);
  }
}

=== FILE: dealer.dfy ===
/** The per-profile cache. A dealer validates keys, maps them to entry
    files, decides whether a stored entry is still fresh by comparing its
    modification time with the profile's TTL and with the profile's master
    tag, and runs the caller's producer only on a miss. */
module Dealer {

  import opened Common
  import opened Values
  import opened FileSystem
  import opened Keys
  import opened Paths
  import opened Statistics
  import opened Runtime

  /** The configuration a dealer is built from. */
  datatype Profile = Profile(name: string, actions: seq<string>, ttl: int, logging: bool, enabled: bool)

  /** The caller's closures a dealer invokes, in the order it invokes them. */
  datatype Callback = Producer | OnCacheHit(content: Value)

  /** The outcome of one call: the new state, the closures invoked and
      either a value or the fatal error that ended the request. */
  datatype Reply<T> = Reply(state: State, calls: seq<Callback>, result: Result<T, Fatal>)

  /** Statistic names. */
  const NewEntry := "Cache Miss (new entry)"
  const ExpiredTtl := "Cache Miss (expired TTL)"
  const Invalidated := "Cache Miss (invalidated)"
  const InvalidEntry := "Cache Miss (invalid entry)"
  const Hit := "Cache Hit"
  const Invalidation := "Invalidation"

  const FetchEvents: set<string> := {NewEntry, ExpiredTtl, Invalidated, InvalidEntry, Hit}

  function Dir(host: Host, p: Profile): string
  {
    ProfileDir(host.storageDir, p.name)
  }

  function Marker(host: Host, p: Profile): string
  {
    MasterTagPath(host.storageDir, p.name)
  }

  function EntryOf(host: Host, p: Profile, key: string): string
  {
    EntryPath(host.storageDir, p.name, key)
  }

  /** `"Name" / Key`, the subject of most log lines. */
  function Subject(p: Profile, key: string): string
  {
    "\"" + p.name + "\" / " + key
  }

  /** The dealer's Log(): forwards to the controller when the profile logs. */
  function Log(host: Host, p: Profile, st: State, message: string): (r: State)
    ensures r.fs == st.fs && r.stats == st.stats
    ensures |r.log| == |st.log| + (if p.logging && host.logEnabled then 1 else 0)
    ensures r.log[..|st.log|] == st.log
    ensures p.logging && host.logEnabled ==> r.log[|st.log|] == message
  {
    if p.logging then HostLog(host, st, message) else st
  }

  /** Event(): counts the statistic on every call; writes a log line only
      when logging is on. */
  function Event(host: Host, p: Profile, st: State, name: string, message: string): (r: State)
    ensures r.fs == st.fs
    ensures Count(r.stats, name) == Count(st.stats, name) + 1
    ensures r.stats - {name} == st.stats - {name}
    ensures |r.log| == |st.log| + (if p.logging && host.logEnabled then 1 else 0)
    ensures r.log[..|st.log|] == st.log
    ensures p.logging && host.logEnabled ==> r.log[|st.log|] == name + ":  " + message
  {
    var logged := Log(host, p, st, name + ":  " + message);
    logged.(stats := AddStatistics(logged.stats, name))
  }

  /** GetFilePath() with the IsValidKey() check it starts with: a bad key
      is logged and ends the request before storage is looked at. */
  function GetFilePath(host: Host, p: Profile, st: State, key: string): (r: Reply<string>)
    ensures r.calls == [] && r.state.fs == st.fs && r.state.stats == st.stats
    ensures r.result.Ok? <==> IsValidKey(key)
    ensures r.result.Ok? ==> r.result.value == EntryOf(host, p, key) && r.state == st
    ensures |key| > MaxKeyLength ==> r.result == Err(KeyTooLong(key))
    ensures |key| <= MaxKeyLength && !IsValidKey(key) ==> r.result == Err(KeyHasInvalidChars(key))
  {
    match CheckKey(key)
    case Some(TooLong) =>
      Reply(Log(host, p, st, "Error: key too long:  " + Subject(p, key)), [], Err(KeyTooLong(key)))
    case Some(ForbiddenChars) =>
      Reply(Log(host, p, st, "Error: key contains invalid chars:  " + Subject(p, key)), [], Err(KeyHasInvalidChars(key)))
    case None =>
      Reply(st, [], Ok(EntryOf(host, p, key)))
  }

  // Freshness of a stored entry, stated declaratively.

  predicate Stored(host: Host, p: Profile, fs: Fs, key: string)
  {
    EntryOf(host, p, key) in fs.files
  }

  function StoredAt(host: Host, p: Profile, fs: Fs, key: string): int
  {
    FileTime(fs, EntryOf(host, p, key))
  }

  /** The entry outlived its time-to-live; at exactly `StoredAt + ttl` it
      has not. */
  predicate TtlExpired(host: Host, p: Profile, fs: Fs, key: string, now: int)
  {
    StoredAt(host, p, fs, key) + p.ttl < now
  }

  /** The master tag was touched after the entry was written. A missing
      tag, or one whose time reads as 0, supersedes nothing, and a tag
      touched in the same second as the entry does not either. */
  predicate Superseded(host: Host, p: Profile, fs: Fs, key: string)
  {
    var tag := FileTime(fs, Marker(host, p));
    tag != 0 && StoredAt(host, p, fs, key) < tag
  }

  /** A fetch finds a usable value: stored, within TTL, not superseded and
      decoding to something other than `false`. */
  predicate Readable(host: Host, p: Profile, fs: Fs, key: string, now: int)
  {
    && Stored(host, p, fs, key)
    && !TtlExpired(host, p, fs, key, now)
    && !Superseded(host, p, fs, key)
    && Load(fs.files[EntryOf(host, p, key)].content) != False
  }

  datatype Verdict = Verdict(state: State, expired: bool)

  /** IsExpired(): the TTL test first, then the master tag test; a missing
      tag is created now and the entry passes. */
  function IsExpired(host: Host, p: Profile, st: State, path: string, key: string, now: int): (r: Verdict)
    ensures path == EntryOf(host, p, key) ==>
              (r.expired <==> TtlExpired(host, p, st.fs, key, now) || Superseded(host, p, st.fs, key))
    ensures r.expired <==>
              || FileTime(st.fs, path) + p.ttl < now
              || (FileTime(st.fs, Marker(host, p)) != 0 && FileTime(st.fs, path) < FileTime(st.fs, Marker(host, p)))
    ensures FileTime(st.fs, path) + p.ttl < now ==>
              r.state.stats == AddStatistics(st.stats, ExpiredTtl) && r.state.fs == st.fs
    ensures r.expired && FileTime(st.fs, path) + p.ttl >= now ==>
              r.state.stats == AddStatistics(st.stats, Invalidated) && r.state.fs == st.fs
    ensures !r.expired ==> r.state.stats == st.stats && r.state.log == st.log
    ensures FileTime(st.fs, path) + p.ttl >= now && FileTime(st.fs, Marker(host, p)) == 0 ==>
              r.state.fs == Touch(st.fs, Dir(host, p), Marker(host, p), now)
    ensures FileTime(st.fs, Marker(host, p)) != 0 ==> r.state.fs == st.fs
    ensures r.state.fs.dirs == st.fs.dirs
    ensures r.state.fs.files - {Marker(host, p)} == st.fs.files - {Marker(host, p)}
  {
    var stamp := FileTime(st.fs, path);
    if stamp + p.ttl < now then
      Verdict(Event(host, p, st, ExpiredTtl, Subject(p, key)), true)
    else
      var tag := FileTime(st.fs, Marker(host, p));
      if tag == 0 then
        Verdict(st.(fs := Touch(st.fs, Dir(host, p), Marker(host, p), now)), false)
      else if stamp < tag then
        Verdict(Event(host, p, st, Invalidated, Subject(p, key)), true)
      else
        Verdict(st, false)
  }

  /** Fetch(): the stored value on a hit, `None` (PHP's `false`) on each of
      the four misses; every path with a valid key counts exactly one of the
      five fetch statistics. */
  function Fetch(host: Host, p: Profile, st: State, key: string, now: int): (r: Reply<Option<Value>>)
    ensures r.calls == []
    ensures !IsValidKey(key) ==> r.result.Err? && r.state.fs == st.fs && r.state.stats == st.stats
    ensures IsValidKey(key) ==> r.result.Ok?
    ensures IsValidKey(key) ==> (r.result.value.Some? <==> Readable(host, p, st.fs, key, now))
    ensures IsValidKey(key) && Readable(host, p, st.fs, key, now) ==>
              && r.result.value == Some(Load(st.fs.files[EntryOf(host, p, key)].content))
              && r.state.stats == AddStatistics(st.stats, Hit)
    ensures IsValidKey(key) && !Stored(host, p, st.fs, key) ==>
              r.state.stats == AddStatistics(st.stats, NewEntry) && r.state.fs == st.fs
    ensures IsValidKey(key) && Stored(host, p, st.fs, key) && TtlExpired(host, p, st.fs, key, now) ==>
              r.state.stats == AddStatistics(st.stats, ExpiredTtl) && r.state.fs == st.fs
    ensures IsValidKey(key) && Stored(host, p, st.fs, key) && !TtlExpired(host, p, st.fs, key, now)
              && Superseded(host, p, st.fs, key) ==>
              r.state.stats == AddStatistics(st.stats, Invalidated) && r.state.fs == st.fs
    ensures IsValidKey(key) && Stored(host, p, st.fs, key) && !TtlExpired(host, p, st.fs, key, now)
              && !Superseded(host, p, st.fs, key) && Load(st.fs.files[EntryOf(host, p, key)].content) == False ==>
              r.state.stats == AddStatistics(st.stats, InvalidEntry)
    ensures IsValidKey(key) && Stored(host, p, st.fs, key) && !TtlExpired(host, p, st.fs, key, now)
              && FileTime(st.fs, Marker(host, p)) == 0 ==>
              r.state.fs == Touch(st.fs, Dir(host, p), Marker(host, p), now)
    ensures r.state.fs.dirs == st.fs.dirs
    ensures r.state.fs.files - {Marker(host, p)} == st.fs.files - {Marker(host, p)}
    ensures FileTime(st.fs, Marker(host, p)) != 0 ==> r.state.fs == st.fs
  {
    var located := GetFilePath(host, p, st, key);
    if located.result.Err? then
      Reply(located.state, [], Err(located.result.error))
    else
      var path := located.result.value;
      if path !in st.fs.files then
        Reply(Event(host, p, st, NewEntry, Subject(p, key)), [], Ok(None))
      else
        var verdict := IsExpired(host, p, st, path, key, now);
        if verdict.expired then
          Reply(verdict.state, [], Ok(None))
        else
          var st1 := verdict.state;
          MasterTagIsNotEntry(host.storageDir, p.name, p.name, key);
          assert st1.fs.files[path] == st.fs.files[path];
          var entry := Load(st1.fs.files[path].content);
          if entry == False then
            Reply(Event(host, p, st1, InvalidEntry, Subject(p, key)), [], Ok(None))
          else
            Reply(Event(host, p, st1, Hit, Subject(p, key)), [], Ok(Some(entry)))
  }

  /** Save(): writes the serialized value with the current time as its
      modification time; the first save into a profile also creates the
      profile directory, its master tag and an .htaccess file. */
  function Save(host: Host, p: Profile, st: State, key: string, v: Value, now: int): (r: Reply<bool>)
    ensures r.calls == [] && r.state.stats == st.stats
    ensures !IsValidKey(key) ==> r.result.Err? && r.state.fs == st.fs
    ensures IsValidKey(key) ==> r.result == Ok(true) && r.state.log == st.log
    ensures IsValidKey(key) ==>
              && EntryOf(host, p, key) in r.state.fs.files
              && r.state.fs.files[EntryOf(host, p, key)] == Node(Serialize(v), now)
              && r.state.fs.dirs == st.fs.dirs + {Dir(host, p)}
    ensures IsValidKey(key) && Dir(host, p) in st.fs.dirs ==>
              r.state.fs.files - {EntryOf(host, p, key)} == st.fs.files - {EntryOf(host, p, key)}
    ensures IsValidKey(key) && Dir(host, p) !in st.fs.dirs ==>
              && FileTime(r.state.fs, Marker(host, p)) == now
              && HtaccessPath(host.storageDir, p.name) in r.state.fs.files
              && r.state.fs.files - {EntryOf(host, p, key), Marker(host, p), HtaccessPath(host.storageDir, p.name)}
                 == st.fs.files - {EntryOf(host, p, key), Marker(host, p), HtaccessPath(host.storageDir, p.name)}
  {
    var located := GetFilePath(host, p, st, key);
    if located.result.Err? then
      Reply(located.state, [], Err(located.result.error))
    else
      var path := located.result.value;
      var dir := Dir(host, p);
      var htaccess := HtaccessPath(host.storageDir, p.name);
      var ready :=
        if dir in st.fs.dirs then st.fs
        else
          var made := MakeDir(st.fs, dir);
          var tagged := Touch(made, dir, Marker(host, p), now);
          PutContents(tagged, dir, htaccess, Text("deny from all"), now);
      MasterTagIsNotEntry(host.storageDir, p.name, p.name, key);
      HtaccessIsNotEntry(host.storageDir, p.name, p.name, key);
      assert dir !in st.fs.dirs ==> FileTime(ready, Marker(host, p)) == now;
      var touched := Touch(ready, dir, path, now);
      var written := PutContents(touched, dir, path, Serialize(v), now);
      Reply(st.(fs := written), [], Ok(true))
  }

  /** Get(): a disabled profile runs the producer and leaves storage
      alone; otherwise a hit returns the stored value without running the
      producer, and a miss runs it once, stores its result and returns it. */
  function Get(host: Host, p: Profile, st: State, key: string, produced: Value, onHit: bool, now: int): (r: Reply<Value>)
    ensures !p.enabled ==>
              && r.result == Ok(produced) && r.calls == [Producer]
              && r.state.fs == st.fs && r.state.stats == st.stats
    ensures p.enabled && !IsValidKey(key) ==>
              r.result.Err? && r.calls == [] && r.state.fs == st.fs && r.state.stats == st.stats
    ensures p.enabled && IsValidKey(key) && Readable(host, p, st.fs, key, now) ==>
              var v := Load(st.fs.files[EntryOf(host, p, key)].content);
              && r.result == Ok(v)
              && r.calls == (if onHit then [OnCacheHit(v)] else [])
              && r.state.stats == AddStatistics(st.stats, Hit)
              && r.state.fs.files - {Marker(host, p)} == st.fs.files - {Marker(host, p)}
    ensures p.enabled && IsValidKey(key) && !Readable(host, p, st.fs, key, now) ==>
              && r.result == Ok(produced) && r.calls == [Producer]
              && EntryOf(host, p, key) in r.state.fs.files
              && r.state.fs.files[EntryOf(host, p, key)] == Node(Serialize(produced), now)
  {
    if !p.enabled then
      Reply(Log(host, p, st, "Cache Disabled  " + Subject(p, key)), [Producer], Ok(produced))
    else
      var fetched := Fetch(host, p, st, key, now);
      if fetched.result.Err? then
        Reply(fetched.state, [], Err(fetched.result.error))
      else if fetched.result.value.None? then
        var saved := Save(host, p, fetched.state, key, produced, now);
        Reply(saved.state, [Producer], Ok(produced))
      else
        var content := fetched.result.value.value;
        Reply(fetched.state, if onHit then [OnCacheHit(content)] else [], Ok(content))
  }

  /** Output(): like Get(), but the producer prints its content, which is
      captured on a miss; the result is the text echoed to the page. */
  function Output(host: Host, p: Profile, st: State, key: string, printed: string, onHit: bool, now: int): (r: Reply<string>)
    ensures !p.enabled ==>
              && r.result == Ok(printed) && r.calls == [Producer]
              && r.state.fs == st.fs && r.state.stats == st.stats
    ensures p.enabled && !IsValidKey(key) ==>
              r.result.Err? && r.calls == [] && r.state.fs == st.fs && r.state.stats == st.stats
    ensures p.enabled && IsValidKey(key) && Readable(host, p, st.fs, key, now) ==>
              var v := Load(st.fs.files[EntryOf(host, p, key)].content);
              && r.result == Ok(Echo(v))
              && r.calls == (if onHit then [OnCacheHit(v)] else [])
              && r.state.stats == AddStatistics(st.stats, Hit)
              && r.state.fs.files - {Marker(host, p)} == st.fs.files - {Marker(host, p)}
    ensures p.enabled && IsValidKey(key) && !Readable(host, p, st.fs, key, now) ==>
              && r.result == Ok(printed) && r.calls == [Producer]
              && EntryOf(host, p, key) in r.state.fs.files
              && r.state.fs.files[EntryOf(host, p, key)] == Node(Serialize(Str(printed)), now)
  {
    if !p.enabled then
      Reply(Log(host, p, st, "Cache Disabled  " + Subject(p, key)), [Producer], Ok(printed))
    else
      var fetched := Fetch(host, p, st, key, now);
      if fetched.result.Err? then
        Reply(fetched.state, [], Err(fetched.result.error))
      else if fetched.result.value.None? then
        var saved := Save(host, p, fetched.state, key, Str(printed), now);
        Reply(saved.state, [Producer], Ok(printed))
      else
        var content := fetched.result.value.value;
        Reply(fetched.state, if onHit then [OnCacheHit(content)] else [], Ok(Echo(content)))
  }

  /** Invalidate(): counts one "Invalidation" and touches the profile's
      master tag; no entry is read, written or removed. When the profile's
      directory does not exist yet the touch fails silently. */
  function Invalidate(host: Host, p: Profile, st: State, action: string, now: int): (r: State)
    ensures Count(r.stats, Invalidation) == Count(st.stats, Invalidation) + 1
    ensures r.stats - {Invalidation} == st.stats - {Invalidation}
    ensures r.fs.dirs == st.fs.dirs
    ensures r.fs.files - {Marker(host, p)} == st.fs.files - {Marker(host, p)}
    ensures Dir(host, p) in st.fs.dirs ==> Marker(host, p) in r.fs.files && FileTime(r.fs, Marker(host, p)) == now
    ensures Dir(host, p) !in st.fs.dirs ==> r.fs == st.fs
    ensures TouchedOnly(st.fs, r.fs, {Marker(host, p)}, now)
  {
    var logged := Event(host, p, st, Invalidation, "\"" + p.name + "\", action: " + action);
    TouchTouchesOnly(logged.fs, Dir(host, p), Marker(host, p), now, {Marker(host, p)});
    logged.(fs := Touch(logged.fs, Dir(host, p), Marker(host, p), now))
  }
}

=== FILE: dealer_properties.dfy ===
/** Properties that relate several dealer calls: what a save makes
    readable, where the TTL boundary lies, what an invalidation does to
    every older entry, and how long the missing-marker grace lasts. */
module DealerProperties {

  import opened Common
  import opened Values
  import opened FileSystem
  import opened Keys
  import opened Paths
  import opened Statistics
  import opened Runtime
  import opened Dealer

  /** An entry written at `t` holding a value other than `false` is read
      back at any `later` within the TTL, as long as the master tag is not
      newer than `t`. */
  lemma WrittenEntryIsReadable(host: Host, p: Profile, fs: Fs, key: string, v: Value, t: int, later: int)
    requires EntryOf(host, p, key) in fs.files && fs.files[EntryOf(host, p, key)] == Node(Serialize(v), t)
    requires v != False
    requires FileTime(fs, Marker(host, p)) <= t
    requires later <= t + p.ttl
    ensures Readable(host, p, fs, key, later)
    ensures Load(fs.files[EntryOf(host, p, key)].content) == v
  {
  }

  /** The master tag after a save is no newer than the save, provided it
      was not newer before. */
  lemma SaveKeepsMarkerBehind(host: Host, p: Profile, st: State, key: string, v: Value, now: int)
    requires IsValidKey(key)
    requires Dir(host, p) !in st.fs.dirs || FileTime(st.fs, Marker(host, p)) <= now
    ensures FileTime(Save(host, p, st, key, v, now).state.fs, Marker(host, p)) <= now
  {
    var saved := Save(host, p, st, key, v, now).state;
    if Dir(host, p) in st.fs.dirs {
      MasterTagIsNotEntry(host.storageDir, p.name, p.name, key);
      assert Marker(host, p) in saved.fs.files - {EntryOf(host, p, key)} <==> Marker(host, p) in st.fs.files - {EntryOf(host, p, key)};
      if Marker(host, p) in st.fs.files {
        assert (saved.fs.files - {EntryOf(host, p, key)})[Marker(host, p)] == (st.fs.files - {EntryOf(host, p, key)})[Marker(host, p)];
      }
    }
  }

  /** Save followed by Fetch at the same instant returns the saved value:
      the entry's time equals the time of a master tag created by this
      first save, and equality counts as fresh. */
  lemma SaveThenFetch(host: Host, p: Profile, st: State, key: string, v: Value, now: int)
    requires IsValidKey(key)
    requires p.ttl >= 0
    requires v != False
    requires Dir(host, p) !in st.fs.dirs || FileTime(st.fs, Marker(host, p)) <= now
    ensures Fetch(host, p, Save(host, p, st, key, v, now).state, key, now).result == Ok(Some(v))
  {
    var saved := Save(host, p, st, key, v, now).state;
    SaveKeepsMarkerBehind(host, p, st, key, v, now);
    WrittenEntryIsReadable(host, p, saved.fs, key, v, now, now);
  }

  /** The TTL boundary: an entry saved at `t` is still served at exactly
      `t + ttl` and is a "Cache Miss (expired TTL)" one second later. */
  lemma TtlBoundary(host: Host, p: Profile, st: State, key: string, v: Value, t: int)
    requires IsValidKey(key)
    requires p.ttl >= 0
    requires v != False
    requires Dir(host, p) !in st.fs.dirs || FileTime(st.fs, Marker(host, p)) <= t
    ensures var saved := Save(host, p, st, key, v, t).state;
            Fetch(host, p, saved, key, t + p.ttl).result == Ok(Some(v))
    ensures var saved := Save(host, p, st, key, v, t).state;
            var late := Fetch(host, p, saved, key, t + p.ttl + 1);
            late.result == Ok(None) && late.state.stats == AddStatistics(saved.stats, ExpiredTtl)
  {
    var saved := Save(host, p, st, key, v, t).state;
    SaveKeepsMarkerBehind(host, p, st, key, v, t);
    WrittenEntryIsReadable(host, p, saved.fs, key, v, t, t + p.ttl);
    assert TtlExpired(host, p, saved.fs, key, t + p.ttl + 1);
  }

  /** The master tag comparison is strict: an entry written in the same
      second as the tag is served, an older one is not. */
  lemma MarkerComparisonIsStrict(host: Host, p: Profile, st: State, key: string, now: int)
    requires IsValidKey(key)
    requires Stored(host, p, st.fs, key) && !TtlExpired(host, p, st.fs, key, now)
    requires Load(st.fs.files[EntryOf(host, p, key)].content) != False
    requires FileTime(st.fs, Marker(host, p)) != 0
    ensures (Fetch(host, p, st, key, now).result.value.Some? <==>
             StoredAt(host, p, st.fs, key) >= FileTime(st.fs, Marker(host, p)))
    ensures StoredAt(host, p, st.fs, key) < FileTime(st.fs, Marker(host, p)) ==>
              Fetch(host, p, st, key, now).state.stats == AddStatistics(st.stats, Invalidated)
  {
  }

  /** Every fetch with a valid key counts exactly one of the five fetch
      statistics and nothing else. */
  lemma FetchCountsOneEvent(host: Host, p: Profile, st: State, key: string, now: int)
    requires IsValidKey(key)
    ensures var s := Fetch(host, p, st, key, now).state.stats;
            || s == AddStatistics(st.stats, NewEntry)
            || s == AddStatistics(st.stats, ExpiredTtl)
            || s == AddStatistics(st.stats, Invalidated)
            || s == AddStatistics(st.stats, InvalidEntry)
            || s == AddStatistics(st.stats, Hit)
  {
  }

  /** A fetch with a valid key grows one of the fetch counters by one and
      leaves every other counter as it was. */
  lemma FetchCountsOnlyFetchEvents(host: Host, p: Profile, st: State, key: string, now: int)
    requires IsValidKey(key)
    ensures var s := Fetch(host, p, st, key, now).state.stats;
            && (forall e :: e !in FetchEvents ==> Count(s, e) == Count(st.stats, e))
            && exists e :: e in FetchEvents && Count(s, e) == Count(st.stats, e) + 1
  {
    FetchCountsOneEvent(host, p, st, key, now);
    OneOfFetchEvents(st.stats, Fetch(host, p, st, key, now).state.stats);
  }

  /** Counting one of the five fetch statistics grows that counter and no
      counter outside the five. */
  lemma OneOfFetchEvents(before: Counters, after: Counters)
    requires || after == AddStatistics(before, NewEntry)
             || after == AddStatistics(before, ExpiredTtl)
             || after == AddStatistics(before, Invalidated)
             || after == AddStatistics(before, InvalidEntry)
             || after == AddStatistics(before, Hit)
    ensures forall e :: e !in FetchEvents ==> Count(after, e) == Count(before, e)
    ensures exists e :: e in FetchEvents && Count(after, e) == Count(before, e) + 1
  {
    if after == AddStatistics(before, NewEntry) {
      assert Count(after, NewEntry) == Count(before, NewEntry) + 1;
    } else if after == AddStatistics(before, ExpiredTtl) {
      assert Count(after, ExpiredTtl) == Count(before, ExpiredTtl) + 1;
    } else if after == AddStatistics(before, Invalidated) {
      assert Count(after, Invalidated) == Count(before, Invalidated) + 1;
    } else if after == AddStatistics(before, InvalidEntry) {
      assert Count(after, InvalidEntry) == Count(before, InvalidEntry) + 1;
    } else {
      assert Count(after, Hit) == Count(before, Hit) + 1;
    }
  }

  /** Invalidation is one touch: afterwards every entry of the profile that
      is older than the invalidation and still within its TTL is a
      "Cache Miss (invalidated)", however many entries there are. */
  lemma InvalidateThenFetch(host: Host, p: Profile, st: State, reason: string, at: int, key: string, later: int)
    requires Dir(host, p) in st.fs.dirs
    requires at != 0
    requires IsValidKey(key) && Stored(host, p, st.fs, key)
    requires StoredAt(host, p, st.fs, key) < at
    requires !TtlExpired(host, p, st.fs, key, later)
    ensures var inv := Invalidate(host, p, st, reason, at);
            var f := Fetch(host, p, inv, key, later);
            f.result == Ok(None) && f.state.stats == AddStatistics(inv.stats, Invalidated)
  {
    var inv := Invalidate(host, p, st, reason, at);
    MasterTagIsNotEntry(host.storageDir, p.name, p.name, key);
    var e := EntryOf(host, p, key);
    assert e in st.fs.files - {Marker(host, p)};
    assert inv.fs.files[e] == (inv.fs.files - {Marker(host, p)})[e];
    assert StoredAt(host, p, inv.fs, key) == StoredAt(host, p, st.fs, key);
    assert Superseded(host, p, inv.fs, key);
  }

  /** Invalidation never changes an entry file, of this or any profile. */
  lemma InvalidateKeepsEntries(host: Host, p: Profile, st: State, reason: string, at: int, q: string, key: string)
    ensures var inv := Invalidate(host, p, st, reason, at);
            var e := EntryPath(host.storageDir, q, key);
            (e in inv.fs.files <==> e in st.fs.files) && (e in st.fs.files ==> inv.fs.files[e] == st.fs.files[e])
  {
    var inv := Invalidate(host, p, st, reason, at);
    var e := EntryPath(host.storageDir, q, key);
    MasterTagIsNotEntry(host.storageDir, p.name, q, key);
    assert e in inv.fs.files <==> e in inv.fs.files - {Marker(host, p)};
    assert e in st.fs.files <==> e in st.fs.files - {Marker(host, p)};
    if e in st.fs.files {
      assert inv.fs.files[e] == (inv.fs.files - {Marker(host, p)})[e];
    }
  }

  /** A missing master tag is created on the first read, which is served;
      from then on the tag is newer than every entry written before that
      read, so every such entry of the profile, the one just read
      included, is a "Cache Miss (invalidated)" on its next read. The grace
      lasts one read only. */
  lemma MissingMarkerGraceLastsOneRead(host: Host, p: Profile, st: State, key: string, now: int,
                                       other: string, later: int)
    requires Dir(host, p) in st.fs.dirs
    requires FileTime(st.fs, Marker(host, p)) == 0
    requires now != 0
    requires IsValidKey(key) && Stored(host, p, st.fs, key)
    requires Load(st.fs.files[EntryOf(host, p, key)].content) != False
    requires !TtlExpired(host, p, st.fs, key, now)
    requires IsValidKey(other) && Stored(host, p, st.fs, other)
    requires StoredAt(host, p, st.fs, other) < now
    requires !TtlExpired(host, p, st.fs, other, later)
    ensures var first := Fetch(host, p, st, key, now);
            && first.result == Ok(Some(Load(st.fs.files[EntryOf(host, p, key)].content)))
            && FileTime(first.state.fs, Marker(host, p)) == now
    ensures var first := Fetch(host, p, st, key, now);
            var second := Fetch(host, p, first.state, other, later);
            second.result == Ok(None) && second.state.stats == AddStatistics(first.state.stats, Invalidated)
  {
    var first := Fetch(host, p, st, key, now);
    assert first.state.fs == Touch(st.fs, Dir(host, p), Marker(host, p), now);
    MasterTagIsNotEntry(host.storageDir, p.name, p.name, other);
    var e := EntryOf(host, p, other);
    assert e in st.fs.files - {Marker(host, p)};
    assert first.state.fs.files[e] == (first.state.fs.files - {Marker(host, p)})[e];
    assert Superseded(host, p, first.state.fs, other);
  }

  /** PHP cannot tell a stored `false` from a miss: once `false` is saved,
      every later Get runs the producer again. */
  lemma StoredFalseIsNeverServed(host: Host, p: Profile, st: State, key: string, now: int, later: int,
                                 produced: Value, onHit: bool)
    requires p.enabled && IsValidKey(key)
    ensures var saved := Save(host, p, st, key, False, now).state;
            && Fetch(host, p, saved, key, later).result == Ok(None)
            && Get(host, p, saved, key, produced, onHit, later).calls == [Producer]
  {
  }

  /** A disabled profile never reads or writes storage, so nothing written
      while it was disabled can be served once it is enabled again. */
  lemma DisabledLeavesStorageAlone(host: Host, p: Profile, st: State, key: string, produced: Value, onHit: bool, now: int)
    requires !p.enabled
    ensures Get(host, p, st, key, produced, onHit, now).state.fs == st.fs
    ensures Get(host, p, st, key, produced, onHit, now).state.stats == st.stats
    ensures forall later :: (Readable(host, p.(enabled := true), Get(host, p, st, key, produced, onHit, now).state.fs, key, later) <==>
                             Readable(host, p.(enabled := true), st.fs, key, later))
  {
  }

  /** What Output() captured on a miss is echoed unchanged on a later hit
      within the TTL, without running the producer. */
  lemma OutputReplaysCapturedText(host: Host, p: Profile, st: State, key: string, text: string, other: string,
                                  onHit: bool, now: int, later: int)
    requires p.enabled && IsValidKey(key)
    requires !Readable(host, p, st.fs, key, now)
    requires FileTime(st.fs, Marker(host, p)) <= now
    requires later <= now + p.ttl
    ensures var first := Output(host, p, st, key, text, onHit, now);
            var second := Output(host, p, first.state, key, other, onHit, later);
            && first.result == Ok(text) && first.calls == [Producer]
            && second.result == Ok(text) && Producer !in second.calls
  {
    var fetched := Fetch(host, p, st, key, now);
    var first := Output(host, p, st, key, text, onHit, now);
    assert first.state == Save(host, p, fetched.state, key, Str(text), now).state;
    assert FileTime(fetched.state.fs, Marker(host, p)) <= now by {
      if FileTime(st.fs, Marker(host, p)) != 0 {
        assert fetched.state.fs == st.fs;
      } else if Marker(host, p) in fetched.state.fs.files {
        assert Marker(host, p) in st.fs.files || fetched.state.fs.files[Marker(host, p)].mtime == now by {
          if Marker(host, p) !in st.fs.files {
            assert Stored(host, p, st.fs, key) && !TtlExpired(host, p, st.fs, key, now);
          }
        }
      }
    }
    SaveKeepsMarkerBehind(host, p, fetched.state, key, Str(text), now);
    WrittenEntryIsReadable(host, p, first.state.fs, key, Str(text), now, later);
  }

  /** The worked example of a profile with a 100-second TTL: a first call
      stores "X" (new entry), a call 50 s later is a hit, an invalidation at
      60 s makes the call at 70 s run the producer again (invalidated). */
  lemma Scenario(host: Host, p: Profile, st: State, t0: int)
    requires p.enabled && p.ttl == 100
    requires st.fs == Fs(map[], {})
    requires t0 > 0
    ensures var g1 := Get(host, p, st, "a", Str("X"), false, t0);
            var g2 := Get(host, p, g1.state, "a", Str("Y"), false, t0 + 50);
            var inv := Invalidate(host, p, g2.state, "test", t0 + 60);
            var g3 := Get(host, p, inv, "a", Str("Z"), false, t0 + 70);
            && g1.result == Ok(Str("X")) && g1.calls == [Producer]
            && Count(g1.state.stats, NewEntry) == Count(st.stats, NewEntry) + 1
            && g2.result == Ok(Str("X")) && g2.calls == []
            && g2.state.stats == AddStatistics(g1.state.stats, Hit)
            && g3.result == Ok(Str("Z")) && g3.calls == [Producer]
            && Count(g3.state.stats, Invalidated) == Count(inv.stats, Invalidated) + 1
  {
    var key := "a";
    assert IsValidKey(key);
    var g1 := Get(host, p, st, key, Str("X"), false, t0);
    assert !Stored(host, p, st.fs, key);
    var f1 := Fetch(host, p, st, key, t0);
    assert g1.state == Save(host, p, f1.state, key, Str("X"), t0).state;
    assert f1.state.fs == st.fs;
    assert FileTime(g1.state.fs, Marker(host, p)) == t0;
    WrittenEntryIsReadable(host, p, g1.state.fs, key, Str("X"), t0, t0 + 50);
    var g2 := Get(host, p, g1.state, key, Str("Y"), false, t0 + 50);
    assert g2.state.fs == g1.state.fs;
    var inv := Invalidate(host, p, g2.state, "test", t0 + 60);
    InvalidateThenFetch(host, p, g2.state, "test", t0 + 60, key, t0 + 70);
    var f3 := Fetch(host, p, inv, key, t0 + 70);
    assert f3.state.stats == AddStatistics(inv.stats, Invalidated);
    var g3 := Get(host, p, inv, key, Str("Z"), false, t0 + 70);
    assert g3.state.stats == Save(host, p, f3.state, key, Str("Z"), t0 + 70).state.stats;
  }
}

=== FILE: filesystem.dfy ===
/** The storage medium: files with contents and modification times, and
    the set of existing directories. Only the calls the cache makes are
    modelled: filemtime(), touch(), file_put_contents() and mkdir(). */
module FileSystem {

  import opened Values

  datatype Node = Node(content: Blob, mtime: int)

  datatype Fs = Fs(files: map<string, Node>, dirs: set<string>)

  /** `@filemtime($path)`: the modification time, or `false` for a missing
      file, which both `+` and `!` read as 0. */
  function FileTime(fs: Fs, path: string): (t: int)
    ensures path !in fs.files ==> t == 0
  {
    if path in fs.files then fs.files[path].mtime else 0
  }

  /** `touch($path)` for a file inside directory `dir`: creates an empty
      file or moves the modification time to `now` keeping the content; a
      missing directory makes it fail and nothing changes. */
  function Touch(fs: Fs, dir: string, path: string, now: int): (r: Fs)
    ensures r.dirs == fs.dirs
    ensures r.files - {path} == fs.files - {path}
    ensures dir in fs.dirs ==> path in r.files && r.files[path].mtime == now
    ensures dir in fs.dirs && path in fs.files ==> r.files[path].content == fs.files[path].content
    ensures dir in fs.dirs && path !in fs.files ==> r.files[path].content == Text("")
    ensures dir !in fs.dirs ==> r == fs
  {
    if dir !in fs.dirs then fs
    else
      var content := if path in fs.files then fs.files[path].content else Text("");
      fs.(files := fs.files[path := Node(content, now)])
  }

  /** `file_put_contents($path, $data)` for a file inside directory `dir`. */
  function PutContents(fs: Fs, dir: string, path: string, data: Blob, now: int): (r: Fs)
    ensures r.dirs == fs.dirs
    ensures r.files - {path} == fs.files - {path}
    ensures dir in fs.dirs ==> path in r.files && r.files[path] == Node(data, now)
    ensures dir !in fs.dirs ==> r == fs
  {
    if dir !in fs.dirs then fs
    else fs.(files := fs.files[path := Node(data, now)])
  }

  /** `mkdir($dir, 0777, true)` */
  function MakeDir(fs: Fs, dir: string): (r: Fs)
    ensures r.files == fs.files
    ensures r.dirs == fs.dirs + {dir}
  {
    fs.(dirs := fs.dirs + {dir})
  }

  /** `fs2` differs from `fs1` only by files in `paths`, each of them created
      or touched at `now`; directories are the same. */
  ghost predicate TouchedOnly(fs1: Fs, fs2: Fs, paths: set<string>, now: int)
  {
    && fs2.dirs == fs1.dirs
    && fs2.files - paths == fs1.files - paths
    && fs1.files.Keys <= fs2.files.Keys
    && forall path :: path in fs2.files && (path !in fs1.files || fs2.files[path] != fs1.files[path]) ==>
         path in paths && fs2.files[path].mtime == now
  }

  lemma TouchedOnlyRefl(fs: Fs, paths: set<string>, now: int)
    ensures TouchedOnly(fs, fs, paths, now)
  {
  }

  lemma TouchedOnlyTrans(fs1: Fs, fs2: Fs, fs3: Fs, paths: set<string>, now: int)
    requires TouchedOnly(fs1, fs2, paths, now) && TouchedOnly(fs2, fs3, paths, now)
    ensures TouchedOnly(fs1, fs3, paths, now)
  {
    forall path | path in fs3.files && (path !in fs1.files || fs3.files[path] != fs1.files[path])
      ensures path in paths && fs3.files[path].mtime == now
    {
      if path in fs2.files && fs3.files[path] == fs2.files[path] {
        assert path !in fs1.files || fs2.files[path] != fs1.files[path];
      }
    }
    forall path | path in fs1.files && path !in paths
      ensures path in fs3.files - paths && (fs3.files - paths)[path] == fs1.files[path]
    {
      assert path in fs1.files - paths;
      assert path in fs2.files - paths;
    }
    assert fs3.files - paths == fs1.files - paths;
  }

  lemma TouchedOnlyWiden(fs1: Fs, fs2: Fs, small: set<string>, large: set<string>, now: int)
    requires TouchedOnly(fs1, fs2, small, now) && small <= large
    ensures TouchedOnly(fs1, fs2, large, now)
  {
    assert fs2.files - large == (fs2.files - small) - large;
    assert fs1.files - large == (fs1.files - small) - large;
  }

  lemma TouchTouchesOnly(fs: Fs, dir: string, path: string, now: int, paths: set<string>)
    requires path in paths
    ensures TouchedOnly(fs, Touch(fs, dir, path, now), paths, now)
  {
    var r := Touch(fs, dir, path, now);
    assert r.files - paths == (r.files - {path}) - paths;
    assert fs.files - paths == (fs.files - {path}) - paths;
  }
}

=== FILE: keys.dfy ===
/** Validation of the identifiers a caller uses as cache keys. A key is a
    PHP byte string; each `char` stands for one byte, so `|key|` is
    strlen($key). */
module Keys {

  import opened Common

  /** Keys longer than this many bytes are refused. */
  const MaxKeyLength: nat := 128

  /** The character class `A-Za-z0-9~_!&= |.-+` of allowed key bytes. */
  predicate IsKeyChar(c: char) {
    || ('A' <= c <= 'Z')
    || ('a' <= c <= 'z')
    || ('0' <= c <= '9')
    || c == '~' || c == '_' || c == '!' || c == '&' || c == '='
    || c == ' ' || c == '|' || c == '.' || c == '-' || c == '+'
  }

  /** The declarative rule: short enough and made of allowed bytes only. */
  predicate IsValidKey(key: string) {
    |key| <= MaxKeyLength && forall i :: 0 <= i < |key| ==> IsKeyChar(key[i])
  }

  /** The replacement count preg_replace() reports when it deletes every
      byte outside the allowed class. */
  function ForbiddenCount(key: string): nat
  {
    if key == [] then 0
    else (if IsKeyChar(key[0]) then 0 else 1) + ForbiddenCount(key[1..])
  }

  lemma {:induction false} ForbiddenCountZero(key: string)
    ensures ForbiddenCount(key) == 0 <==> forall i :: 0 <= i < |key| ==> IsKeyChar(key[i])
  {
    if key != [] {
      ForbiddenCountZero(key[1..]);
      assert forall i :: 1 <= i < |key| ==> key[i] == key[1..][i - 1];
    }
  }

  datatype KeyError = TooLong | ForbiddenChars

  /** The two checks in the order the dealer makes them: length first, then
      the character class. */
  function CheckKey(key: string): (r: Option<KeyError>)
    ensures r == None <==> IsValidKey(key)
    ensures r == Some(TooLong) <==> |key| > MaxKeyLength
    ensures r == Some(ForbiddenChars) <==>
              |key| <= MaxKeyLength && exists i :: 0 <= i < |key| && !IsKeyChar(key[i])
  {
    ForbiddenCountZero(key);
    if |key| > MaxKeyLength then Some(TooLong)
    else if ForbiddenCount(key) > 0 then Some(ForbiddenChars)
    else None
  }

  /** The length bound is inclusive: 128 allowed bytes pass, 129 do not. */
  lemma LengthBoundary(key: string)
    requires forall i :: 0 <= i < |key| ==> IsKeyChar(key[i])
    ensures |key| == 128 ==> CheckKey(key) == None
    ensures |key| == 129 ==> CheckKey(key) == Some(TooLong)
  {
  }

}

=== FILE: ordered_maps.dfy ===
/** PHP arrays with string keys: maps that remember insertion order.
    Assigning to an existing key replaces its value in place; a new key is
    appended. */
module OrderedMaps {

  import opened Common

  datatype Slot<V> = Slot(key: string, value: V)

  type OrderedMap<V> = seq<Slot<V>>

  ghost predicate UniqueKeys<V>(m: OrderedMap<V>) {
    forall i, j :: 0 <= i < j < |m| ==> m[i].key != m[j].key
  }

  predicate HasKey<V>(m: OrderedMap<V>, k: string) {
    exists i :: 0 <= i < |m| && m[i].key == k
  }

  /** The position of the first slot holding key `k`. */
  function IndexOf<V>(m: OrderedMap<V>, k: string): (r: Option<nat>)
    ensures r.Some? ==> r.value < |m| && m[r.value].key == k
    ensures r.Some? ==> forall j :: 0 <= j < r.value ==> m[j].key != k
    ensures r.None? <==> !HasKey(m, k)
  {
    if |m| == 0 then None
    else if m[0].key == k then Some(0)
    else
      var r := IndexOf(m[1..], k);
      assert forall j :: 1 <= j < |m| ==> m[j] == m[1..][j - 1];
      if r.None? then None else Some(r.value + 1)
  }

  /** `$m[$k] ?? null` as an option. */
  function Get<V>(m: OrderedMap<V>, k: string): (r: Option<V>)
    ensures r.Some? <==> HasKey(m, k)
  {
    match IndexOf(m, k)
    case None => None
    case Some(i) => Some(m[i].value)
  }

  lemma UniqueIndex<V>(m: OrderedMap<V>, k: string, i: nat)
    requires UniqueKeys(m)
    requires i < |m| && m[i].key == k
    ensures IndexOf(m, k) == Some(i)
  {
  }

  /** Two arrays with the same keys in the same order find every key at the
      same position. */
  lemma {:induction false} SameKeysSameIndex<V>(m: OrderedMap<V>, r: OrderedMap<V>, k: string)
    requires |m| == |r|
    requires forall i :: 0 <= i < |m| ==> r[i].key == m[i].key
    ensures IndexOf(r, k) == IndexOf(m, k)
  {
    if |m| > 0 && m[0].key != k {
      SameKeysSameIndex(m[1..], r[1..], k);
    }
  }

  lemma {:induction false} AppendIndex<V>(m: OrderedMap<V>, s: Slot<V>, k: string)
    ensures IndexOf(m + [s], k) == if HasKey(m, k) then IndexOf(m, k) else if s.key == k then Some(|m|) else None
  {
    var r := m + [s];
    assert forall j :: 0 <= j < |m| ==> r[j] == m[j];
    if HasKey(m, k) {
      var i := IndexOf(m, k).value;
      assert r[i].key == k;
    } else if s.key == k {
      assert r[|m|].key == k;
    } else {
      assert !HasKey(r, k);
    }
  }

  /** `$m[$k] = $v` */
  function Set<V>(m: OrderedMap<V>, k: string, v: V): (r: OrderedMap<V>)
    ensures |r| == if HasKey(m, k) then |m| else |m| + 1
    ensures forall i :: 0 <= i < |m| ==> r[i].key == m[i].key
    ensures forall i :: 0 <= i < |m| && m[i].key != k ==> r[i] == m[i]
    ensures UniqueKeys(m) ==> forall i :: 0 <= i < |r| && r[i].key == k ==> r[i].value == v
    ensures Get(r, k) == Some(v)
    ensures forall k' :: k' != k ==> Get(r, k') == Get(m, k')
    ensures forall k' :: HasKey(r, k') <==> HasKey(m, k') || k' == k
    ensures UniqueKeys(m) ==> UniqueKeys(r)
  {
    match IndexOf(m, k)
    case Some(i) =>
      var r := m[i := Slot(k, v)];
      forall k' ensures IndexOf(r, k') == IndexOf(m, k') && (HasKey(r, k') <==> HasKey(m, k')) {
        SameKeysSameIndex(m, r, k');
      }
      r
    case None =>
      var r := m + [Slot(k, v)];
      forall k'
        ensures IndexOf(r, k') == (if HasKey(m, k') then IndexOf(m, k') else if k' == k then Some(|m|) else None)
        ensures HasKey(r, k') <==> HasKey(m, k') || k' == k
      {
        AppendIndex(m, Slot(k, v), k');
      }
      r
  }

  /** Assigning the same key twice keeps only the second value: the last
      write wins and the key keeps its first position. */
  lemma {:induction false} LastWriteWins<V>(m: OrderedMap<V>, k: string, v1: V, v2: V)
    ensures Set(Set(m, k, v1), k, v2) == Set(m, k, v2)
  {
    var m1 := Set(m, k, v1);
    match IndexOf(m, k)
    case Some(i) =>
      assert m1 == m[i := Slot(k, v1)];
      SameKeysSameIndex(m, m1, k);
    case None =>
      assert m1 == m + [Slot(k, v1)];
      AppendIndex(m, Slot(k, v1), k);
  }
}

=== FILE: paths.dfy ===
/** Where the cache keeps things: one directory per profile under the
    storage directory, an entry file per key and a zero-length master tag
    file whose modification time is the profile's invalidation marker. */
module Paths {

  const MasterTagName := ".master.tag"
  const EntrySuffix := ".php"
  const HtaccessName := ".htaccess"

  function ProfileDir(storageDir: string, profile: string): string
  {
    storageDir + "/" + profile
  }

  /** `GetStorageDir()."/{$Name}/{$Key}.php"` */
  function EntryPath(storageDir: string, profile: string, key: string): string
  {
    ProfileDir(storageDir, profile) + "/" + key + EntrySuffix
  }

  /** `$StorageDir.'/'.$ProfileName.'/'.$MasterTag` */
  function MasterTagPath(storageDir: string, profile: string): string
  {
    ProfileDir(storageDir, profile) + "/" + MasterTagName
  }

  function HtaccessPath(storageDir: string, profile: string): string
  {
    ProfileDir(storageDir, profile) + "/" + HtaccessName
  }

  lemma ConcatCancel(a: string, x: string, y: string, b: string)
    requires a + x + b == a + y + b
    ensures x == y
  {
    assert |x| == |y|;
    assert x == (a + x + b)[|a|..|a| + |x|];
    assert y == (a + y + b)[|a|..|a| + |y|];
  }

  /** Within one profile, distinct keys never share an entry file. */
  lemma EntryPathInjective(storageDir: string, profile: string, k1: string, k2: string)
    requires EntryPath(storageDir, profile, k1) == EntryPath(storageDir, profile, k2)
    ensures k1 == k2
  {
    ConcatCancel(ProfileDir(storageDir, profile) + "/", k1, k2, EntrySuffix);
  }

  /** Distinct profiles never share a master tag. */
  lemma MasterTagInjective(storageDir: string, p1: string, p2: string)
    requires MasterTagPath(storageDir, p1) == MasterTagPath(storageDir, p2)
    ensures p1 == p2
  {
    var suffix := "/" + MasterTagName;
    assert MasterTagPath(storageDir, p1) == storageDir + "/" + p1 + suffix;
    assert MasterTagPath(storageDir, p2) == storageDir + "/" + p2 + suffix;
    ConcatCancel(storageDir + "/", p1, p2, suffix);
  }

  /** A master tag ends in ".tag" and an entry in ".php", so touching a
      marker never touches an entry of any profile. */
  lemma MasterTagIsNotEntry(storageDir: string, p: string, q: string, key: string)
    ensures MasterTagPath(storageDir, p) != EntryPath(storageDir, q, key)
  {
    var m := MasterTagPath(storageDir, p);
    var e := EntryPath(storageDir, q, key);
    assert m[|m| - 1] == 'g';
    assert e[|e| - 1] == 'p';
  }

  lemma HtaccessIsNotEntry(storageDir: string, p: string, q: string, key: string)
    ensures HtaccessPath(storageDir, p) != EntryPath(storageDir, q, key)
    ensures HtaccessPath(storageDir, p) != MasterTagPath(storageDir, q)
  {
    var h := HtaccessPath(storageDir, p);
    var e := EntryPath(storageDir, q, key);
    var m := MasterTagPath(storageDir, q);
    assert h[|h| - 1] == 's';
    assert e[|e| - 1] == 'p';
    assert m[|m| - 1] == 'g';
  }
}

=== FILE: php_strings.dfy ===
/** The PHP string functions the controller relies on: trim(), explode(),
    and the `array_filter(array_map('trim', ...))` idiom that cleans lists
    of action names. A PHP string is a byte string; each `char` here stands
    for one byte. */
module PhpStrings {

  /** The characters trim() strips by default: space, tab, line feed,
      carriage return, NUL and vertical tab. */
  predicate IsTrimChar(c: char) {
    c == ' ' || c == '\t' || c == '\n' || c == '\r' || c == '\U{0}' || c == '\U{B}'
  }

  predicate AllTrimChars(s: string) {
    forall i :: 0 <= i < |s| ==> IsTrimChar(s[i])
  }

  /** True when `s` neither starts nor ends with a trim character. */
  predicate IsTrimmed(s: string) {
    |s| > 0 ==> !IsTrimChar(s[0]) && !IsTrimChar(s[|s| - 1])
  }

  function TrimLeft(s: string): (r: string)
    ensures |r| <= |s| && r == s[|s| - |r|..]
    ensures AllTrimChars(s[..|s| - |r|])
    ensures |r| > 0 ==> !IsTrimChar(r[0])
    decreases |s|
  {
    if |s| > 0 && IsTrimChar(s[0]) then
      var r := TrimLeft(s[1..]);
      assert s[1..][|s| - 1 - |r|..] == s[|s| - |r|..];
      assert forall k :: 1 <= k < |s| - |r| ==> s[k] == s[1..][..|s| - 1 - |r|][k - 1];
      r
    else s
  }

  function TrimRight(s: string): (r: string)
    ensures |r| <= |s| && r == s[..|r|]
    ensures AllTrimChars(s[|r|..])
    ensures |r| > 0 ==> !IsTrimChar(r[|r| - 1])
    decreases |s|
  {
    if |s| > 0 && IsTrimChar(s[|s| - 1]) then
      var r := TrimRight(s[..|s| - 1]);
      assert s[|r|..] == s[..|s| - 1][|r|..] + [s[|s| - 1]];
      r
    else s
  }

  /** trim($s) */
  function Trim(s: string): (r: string)
    ensures IsTrimmed(r)
    ensures |r| <= |s|
  {
    var l := TrimLeft(s);
    var r := TrimRight(l);
    assert |r| > 0 ==> r[0] == l[0];
    r
  }

  lemma TrimOfTrimmed(s: string)
    requires IsTrimmed(s)
    ensures Trim(s) == s
  {
  }

  lemma TrimIdempotent(s: string)
    ensures Trim(Trim(s)) == Trim(s)
  {
    TrimOfTrimmed(Trim(s));
  }

  lemma {:induction false} TrimLeftPadded(pad: string, x: string)
    requires AllTrimChars(pad)
    requires |x| > 0 ==> !IsTrimChar(x[0])
    ensures TrimLeft(pad + x) == x
    decreases |pad|
  {
    if |pad| > 0 {
      assert (pad + x)[1..] == pad[1..] + x;
      TrimLeftPadded(pad[1..], x);
    } else {
      assert pad + x == x;
    }
  }

  lemma {:induction false} TrimRightPadded(x: string, pad: string)
    requires AllTrimChars(pad)
    requires |x| > 0 ==> !IsTrimChar(x[|x| - 1])
    ensures TrimRight(x + pad) == x
    decreases |pad|
  {
    if |pad| > 0 {
      assert (x + pad)[..|x + pad| - 1] == x + pad[..|pad| - 1];
      TrimRightPadded(x, pad[..|pad| - 1]);
    } else {
      assert x + pad == x;
    }
  }

  /** trim() removes exactly the surrounding run of trim characters and
      keeps the inner text unchanged. */
  lemma TrimStripsPadding(left: string, x: string, right: string)
    requires AllTrimChars(left) && AllTrimChars(right)
    requires IsTrimmed(x)
    ensures Trim(left + x + right) == x
  {
    if |x| > 0 {
      assert left + x + right == left + (x + right);
      assert (x + right)[0] == x[0];
      TrimLeftPadded(left, x + right);
      TrimRightPadded(x, right);
    } else {
      assert left + x + right == (left + right) + "";
      TrimLeftPadded(left + right, "");
    }
  }

  /** implode($d, $parts) */
  function Implode(parts: seq<string>, d: char): string
    requires |parts| >= 1
  {
    if |parts| == 1 then parts[0] else parts[0] + [d] + Implode(parts[1..], d)
  }

  /** explode($d, $s): the pieces between consecutive delimiters. */
  function Explode(s: string, d: char): (parts: seq<string>)
    ensures |parts| >= 1
    ensures forall i :: 0 <= i < |parts| ==> d !in parts[i]
    ensures Implode(parts, d) == s
    ensures |parts| == 1 <==> d !in s
    decreases |s|
  {
    if |s| == 0 then [""]
    else
      var rest := Explode(s[1..], d);
      assert s == [s[0]] + s[1..];
      if s[0] == d then
        assert Implode([""] + rest, d) == "" + [d] + Implode(rest, d);
        [""] + rest
      else
        var head := [s[0]] + rest[0];
        var parts := [head] + rest[1..];
        assert d !in head;
        assert |rest| > 1 ==> Implode(rest, d) == rest[0] + [d] + Implode(rest[1..], d);
        assert |rest| > 1 ==> Implode(parts, d) == head + [d] + Implode(rest[1..], d);
        assert d in s <==> d in s[1..];
        parts
  }

  /** The first piece of explode() is everything before the first
      delimiter. */
  lemma {:induction false} ExplodeAtFirst(x: string, d: char, y: string)
    requires d !in x
    ensures Explode(x + [d] + y, d) == [x] + Explode(y, d)
    decreases |x|
  {
    var s := x + [d] + y;
    if |x| == 0 {
      assert s == [d] + y;
      assert s[1..] == y;
    } else {
      assert s[1..] == x[1..] + [d] + y;
      ExplodeAtFirst(x[1..], d, y);
      assert [s[0]] + x[1..] == x;
    }
  }

  lemma {:induction false} ExplodeImplode(parts: seq<string>, d: char)
    requires |parts| >= 1
    requires forall i :: 0 <= i < |parts| ==> d !in parts[i]
    ensures Explode(Implode(parts, d), d) == parts
    decreases |parts|
  {
    if |parts| == 1 {
      var s := parts[0];
      assert d !in s;
      var e := Explode(s, d);
      assert |e| == 1;
      assert Implode(e, d) == e[0];
    } else {
      ExplodeImplode(parts[1..], d);
      ExplodeAtFirst(parts[0], d, Implode(parts[1..], d));
      assert [parts[0]] + parts[1..] == parts;
    }
  }

  /** array_filter() without a callback keeps only truthy items; the PHP
      strings "" and "0" are falsy. */
  predicate IsTruthy(item: string) {
    item != "" && item != "0"
  }

  /** array_filter(array_map('trim', $items)) */
  function TrimAndFilter(items: seq<string>): (r: seq<string>)
    ensures |r| <= |items|
    ensures forall i :: 0 <= i < |r| ==> IsTruthy(r[i]) && IsTrimmed(r[i])
  {
    if items == [] then []
    else
      var t := Trim(items[0]);
      (if IsTruthy(t) then [t] else []) + TrimAndFilter(items[1..])
  }

  /** An action survives cleaning exactly when it is the trimmed form of
      some input item and is not falsy. */
  lemma {:induction false} TrimAndFilterMembership(items: seq<string>, a: string)
    ensures a in TrimAndFilter(items) <==> IsTruthy(a) && exists x :: x in items && Trim(x) == a
    decreases |items|
  {
    if items != [] {
      TrimAndFilterMembership(items[1..], a);
      assert items == [items[0]] + items[1..];
      if a in TrimAndFilter(items) && a != Trim(items[0]) {
        assert a in TrimAndFilter(items[1..]);
      }
      if IsTruthy(a) && (exists x :: x in items && Trim(x) == a) {
        var x :| x in items && Trim(x) == a;
        if x != items[0] {
          assert x in items[1..];
        }
      }
    }
  }

  /** A list of one clean action is left as it is. */
  lemma TrimAndFilterSingle(h: string)
    requires IsTruthy(h) && IsTrimmed(h)
    ensures TrimAndFilter([h]) == [h]
  {
    var items := [h];
    assert items[0] == h && items[1..] == [];
    TrimOfTrimmed(h);
    var t := Trim(items[0]);
    assert t == h;
    assert TrimAndFilter(items[1..]) == [];
    assert TrimAndFilter(items) == [t] + TrimAndFilter(items[1..]);
  }
}

=== FILE: runtime.dfy ===
/** What a dealer runs against: the storage medium, the controller's
    statistics buffer and its log, plus the two controller settings a
    dealer reads back (the storage directory and the global logging
    switch). */
module Runtime {

  import opened FileSystem
  import opened Statistics

  datatype Host = Host(storageDir: string, logEnabled: bool)

  datatype State = State(fs: Fs, stats: Counters, log: seq<string>)

  /** The ways a request ends in a fatal error. */
  datatype Fatal =
    | KeyTooLong(key: string)           // trigger_error(..., E_USER_ERROR)
    | KeyHasInvalidChars(key: string)   // trigger_error(..., E_USER_ERROR)
    | ProfileNotFound(name: string)     // wp_die()

  /** The controller's Log(): appends a line when logging is enabled
      globally. The date prefix and the file append are not modelled. */
  function HostLog(host: Host, st: State, message: string): (r: State)
    ensures r.fs == st.fs && r.stats == st.stats
    ensures |r.log| == |st.log| + (if host.logEnabled then 1 else 0)
    ensures r.log[..|st.log|] == st.log
    ensures host.logEnabled ==> r.log[|st.log|] == message
  {
    if host.logEnabled then st.(log := st.log + [message]) else st
  }
}

=== FILE: statistics.dfy ===
/** The controller's statistics: an in-memory buffer of event counters
    for the current request, merged at shutdown into the counters kept
    in the statistics report. */
module Statistics {

  import opened Common

  type Counters = map<string, nat>

  /** A counter's value; PHP reads a missing entry as 0. */
  function Count(stats: Counters, name: string): nat
  {
    if name in stats then stats[name] else 0
  }

  /** `$this->Stats[$EventName]++` */
  function AddStatistics(stats: Counters, name: string): (r: Counters)
    ensures Count(r, name) == Count(stats, name) + 1
    ensures forall k :: k != name ==> Count(r, k) == Count(stats, k)
    ensures r.Keys == stats.Keys + {name}
    ensures r - {name} == stats - {name}
  {
    stats[name := Count(stats, name) + 1]
  }

  /** The counter update of the shutdown handler: every buffered counter is
      added to its persisted value (or starts from the buffered value), and
      counters only persisted are kept as they are. */
  method MergeCounts(persisted: Counters, buffer: Counters) returns (merged: Counters)
    ensures merged.Keys == persisted.Keys + buffer.Keys
    ensures forall k :: k in buffer ==> merged[k] == Count(persisted, k) + buffer[k]
    ensures forall k :: k in persisted && k !in buffer ==> merged[k] == persisted[k]
  {
    merged := persisted;
    var todo := buffer.Keys;
    while todo != {}
      invariant todo <= buffer.Keys
      invariant merged.Keys == persisted.Keys + (buffer.Keys - todo)
      invariant forall k :: k in buffer && k !in todo ==> merged[k] == Count(persisted, k) + buffer[k]
      invariant forall k :: k in persisted && k !in buffer ==> merged[k] == persisted[k]
      invariant forall k :: k in todo && k in persisted ==> merged[k] == persisted[k]
      decreases todo
    {
      var k :| k in todo;
      merged := merged[k := Count(persisted, k) + buffer[k]];
      todo := todo - {k};
    }
  }

  /** The shutdown handler writes a report only when logging is enabled
      and the buffer holds something; the result is the new set of counters
      or None when the report is left alone. */
  method OnShutdown(logEnabled: bool, persisted: Counters, buffer: Counters) returns (report: Option<Counters>)
    ensures report.None? <==> !logEnabled || buffer == map[]
    ensures report.Some? ==> report.value.Keys == persisted.Keys + buffer.Keys
    ensures report.Some? ==> forall k :: k in buffer ==> report.value[k] == Count(persisted, k) + buffer[k]
    ensures report.Some? ==> forall k :: k in persisted && k !in buffer ==> report.value[k] == persisted[k]
  {
    if !logEnabled || buffer == map[] {
      return None;
    }
    var merged := MergeCounts(persisted, buffer);
    report := Some(merged);
  }
}

=== FILE: values.dfy ===
/** The PHP values a producer may hand to the cache, and the bytes that
    serialize()/var_export() leave on disk, kept abstract. */
module Values {

  /** The PHP values the model follows: null, booleans, integers and
      strings. Floats, arrays and objects are not modelled. */
  datatype Value = Null | Bool(b: bool) | Int(i: int) | Str(s: string)

  /** PHP's `false`, which unserialize() also returns on failure. */
  const False: Value := Bool(false)

  /** What a file holds: either a dump written by the cache, or any other
      bytes (a zero-length marker, the .htaccess file, a corrupt entry). */
  datatype Blob = Dump(v: Value) | Text(bytes: string)

  /** serialize() followed by var_export() into a PHP file. */
  function Serialize(v: Value): (b: Blob)
    ensures Load(b) == v
    ensures b.Dump?
  {
    Dump(v)
  }

  /** `unserialize(@include $path)`: the stored value, or `false` when the
      bytes do not decode. */
  function Load(b: Blob): Value
  {
    match b
    case Dump(v) => v
    case Text(_) => False
  }

  function DigitChar(d: nat): char
    requires d < 10
  {
    "0123456789"[d]
  }

  /** The decimal digits of `n`, most significant first, without leading
      zeros. */
  function Decimal(n: nat): (r: string)
    ensures CanonicalDigits(r)
  {
    if n < 10 then [DigitChar(n)] else Decimal(n / 10) + [DigitChar(n % 10)]
  }

  predicate IsDigits(s: string)
  {
    forall i :: 0 <= i < |s| ==> '0' <= s[i] <= '9'
  }

  /** PHP's decimal text of a natural number: at least one digit and no
      leading zero. */
  predicate CanonicalDigits(s: string)
  {
    |s| >= 1 && (|s| > 1 ==> s[0] != '0') && IsDigits(s)
  }

  /** The number a string of decimal digits denotes. */
  function DigitsValue(s: string): nat
    requires IsDigits(s)
  {
    if s == [] then 0 else 10 * DigitsValue(s[..|s| - 1]) + (s[|s| - 1] as int - '0' as int)
  }

  /** A digit character reads back as its digit. */
  lemma DigitCharValue(d: nat)
    requires d < 10
    ensures DigitChar(d) as int - '0' as int == d
  {
    assert "0123456789"[d] as int == '0' as int + d;
  }

  /** Reading back the digits `Decimal` prints gives the number again. */
  lemma {:induction false} DecimalRoundTrip(n: nat)
    ensures DigitsValue(Decimal(n)) == n
    decreases n
  {
    if n >= 10 {
      var q, m := n / 10, n % 10;
      DecimalRoundTrip(q);
      var d := Decimal(n);
      assert d == Decimal(q) + [DigitChar(m)];
      assert d[..|d| - 1] == Decimal(q);
      assert d[|d| - 1] == DigitChar(m);
      DigitCharValue(m);
      assert DigitsValue(d) == 10 * DigitsValue(Decimal(q)) + m;
      assert n == 10 * q + m;
    }
  }

  /** A minus sign put in front of `d`: the rest is `d` itself. */
  lemma MinusPrefix(d: string)
    ensures var r := "-" + d;
            && |r| == |d| + 1 && r[0] == '-' && r[1..] == d
  {
    assert ("-" + d)[1..] == d;
  }

  /** PHP's decimal text of an integer: its digits, after a minus sign
      when it is negative. */
  function IntText(i: int): (r: string)
    ensures i >= 0 ==> CanonicalDigits(r) && DigitsValue(r) == i
    ensures i < 0 ==> |r| >= 2 && r[0] == '-' && CanonicalDigits(r[1..]) && DigitsValue(r[1..]) == -i
  {
    if i < 0 then
      DecimalRoundTrip(-i);
      var d := Decimal(-i);
      MinusPrefix(d);
      "-" + d
    else
      DecimalRoundTrip(i);
      Decimal(i)
  }

  /** `echo $v`: PHP's string conversion of a value. */
  function Echo(v: Value): (r: string)
    ensures v.Str? ==> r == v.s
    ensures v == Null || v == False ==> r == ""
    ensures v == Bool(true) ==> r == "1"
    ensures v.Int? && v.i >= 0 ==> CanonicalDigits(r) && DigitsValue(r) == v.i
    ensures v.Int? && v.i < 0 ==> |r| >= 2 && r[0] == '-' && CanonicalDigits(r[1..]) && DigitsValue(r[1..]) == -v.i
  {
    match v
    case Null => ""
    case Bool(b) => if b then "1" else ""
    case Int(i) => IntText(i)
    case Str(s) => s
  }
}
